=== FILE: README.md ===
# pdf2html command building and upload filtering, in Dafny

This project models the pure decision logic of a small PDF-to-HTML web
service. The service wraps poppler's `pdftohtml` and `pdfinfo` tools. The
model covers:

- **`_build_command`**: the `pdftohtml` argument list built from the conversion
  options (`PdfToHtmlCommand`, `build_command.dfy`).
- **`_get_command_path`**: the platform-specific path of a poppler executable
  (`CommandPath`, `command_path.dfy`).
- **The page-range normalisation** at the start of `convert_from_path`
  (`PageRange`, `page_range.dfy`).
- **The `pdfinfo` command and the parser of its output** in `pdfinfo_from_path`
  (`PdfInfo`, `pdfinfo.dfy`).
- **What `convert_from_path` decides before it runs `pdftohtml`**
  (`Conversion`, `conversion.dfy`): the page count, the range, the absolute
  path of the PDF copy, the argument list and whether `Popen` accepts it.
- **`allowed_file` and the accept/reject decision of `upload_to`**
  (`Upload`, `upload.dfy`).

Python's own behaviour is written out where the code relies on it:

- `PyStr` (`pystr.dfy`): `str.split`, `join`, `rsplit(sep, 1)`, `strip()`
  with Python's whitespace set, and ASCII `lower()`.
- `PyInt` (`pyint.dfy`): `str(int)`, and `int()` on an optional sign followed
  by digits with single underscores.
- `Base` (`base.dfy`): `Option` stands for `None`, and `Result` stands for an
  exception that replaces a return value.

Modelling decisions:

- A keyword argument that the code only tests for truthiness is a
  `Flag = Option<bool>`. Only `Some(true)` is truthy.
- The Python argument list can hold `None`: `userpw` given without `ownerpw`
  appends `None` after `-opw`. So list elements are `Token = Str(text) |
  NoneToken`.
- `_build_command` is modelled as the 20 option-adding `if`s of the code, in
  order (`Step`). The tokens come from an intermediate list of options
  (`Opt`) through `Encode`. `Decode` reads them back, which proves that the
  tokens after the PDF path are an unambiguous option list.
- `platform.system()` is the `Host` parameter. The path flavour of
  `os.path.join`, posix or nt, follows from it.
- `pdfinfo`'s standard output and the folder made by `tempfile.mkdtemp()`
  are parameters. The processes themselves are not modelled.

## Model

| member | source | states |
|---|---|---|
| PdfToHtmlCommand.BuildCommand | helpers/pdf2html.py:304-389 | the returned list begins with the caller's `args`, and `pdf_path` follows immediately |
| PdfToHtmlCommand.BuildCommandReadsBack | helpers/pdf2html.py:327-387 | everything after `pdf_path` reads back as exactly the options the 20 tests requested, so each option keeps its argument |
| PdfToHtmlCommand.DecodeEncode | helpers/pdf2html.py:329-387 | option tokens are never ambiguous: reading back the tokens of any option list gives that list |
| PdfToHtmlCommand.EncodeDecode | helpers/pdf2html.py:329-387 | every token list that reads as options is exactly the tokens of those options |
| PdfToHtmlCommand.RequestedSwitches | helpers/pdf2html.py:338-387 | each of the 11 flag switches (`-p`, `-c`, `-s`, `-i`, `-noframes`, `-xml`, `-noRoundedCoordinates`, `-hidden`, `-nomerge`, `-nodrm`, `-fontfullname`) occurs exactly once when its keyword is truthy and not at all when it is `None` or falsy |
| PdfToHtmlCommand.RequestedSettings | helpers/pdf2html.py:329-384 | `-f` gets `str(first_page)` once; `-l` gets `str(last_page)` twice; `-zoom`, `-enc`, `-fmt` and `-wbt` get their value once when it is not `None`; `-opw` gets `ownerpw` once for `ownerpw` and once more for `userpw` |
| PdfToHtmlCommand.RequestedInCodeOrder | helpers/pdf2html.py:329-387 | the options come out in the fixed order of the code's tests |
| PdfToHtmlCommand.PageOptionsLead | helpers/pdf2html.py:327-336 | right after `pdf_path` come `-f` and the first page when one is given, then `-l` and the last page twice when one is given |
| PdfToHtmlCommand.UserPasswordValueIgnored | helpers/pdf2html.py:368-369 | whether `userpw` is given matters, but its value never does: the user password itself never reaches the list |
| PdfToHtmlCommand.NoneOnlyFromUserPassword | helpers/pdf2html.py:365-369 | the list holds `None` exactly when the caller's list did, or when `userpw` is given without `ownerpw` |
| PdfToHtmlCommand.NothingRequested | helpers/pdf2html.py:327-389 | when every option is `None` or falsy, the list is `args` followed by `pdf_path` and nothing else |
| CommandPath.GetCommandPath | helpers/pdf2html.py:392-399 | without a poppler directory the path is the bare executable name; with one, the path starts with the directory and ends with the name, with one separator between them unless the directory already ends in one (or is empty, or a bare drive on Windows) |
| CommandPath.CommandPathExeOnlyOnWindows | helpers/pdf2html.py:393-394 | the path ends in `.exe` exactly when the platform is Windows |
| CommandPath.LastComponent | helpers/pdf2html.py:109 | `os.path.basename`: a suffix of the path holding no separator (nor, on Windows, a colon), preceded by a separator, a drive colon or nothing; `LastComponentOfJoin` gives back the name joined to any folder |
| CommandPath.CommandPathNamesExecutable | helpers/pdf2html.py:392-399 | whatever directory is given, the path's final component is the executable's file name |
| PageRange.NormalizeRange | helpers/pdf2html.py:91-105 | a missing first page becomes 1; the last page is the page count when missing or past the end, and otherwise the given one; the recomputed count is last − first + 1 and at least 1 |
| PageRange.SelectionIsRequestedPagesInDocument | helpers/pdf2html.py:91-98 | the chosen range holds exactly the requested pages that are not past the page count |
| PageRange.NoPagesIffNothingRequested | helpers/pdf2html.py:97-98 | an empty result (the function returns `[]`) happens exactly when no requested page lies within the document |
| PageRange.CountIsNumberOfPages | helpers/pdf2html.py:104-105 | the recomputed page count is the number of pages in the range |
| PageRange.NormalizeIdempotent | helpers/pdf2html.py:91-98 | normalising the chosen range again changes nothing |
| PdfInfo.PdfInfoCommand | helpers/pdf2html.py:424-427 | the `pdfinfo` command is the executable and the PDF path, followed by `-upw` and the user password only when one is given |
| PdfInfo.KeyAndValueOfLine | helpers/pdf2html.py:439-440 | a line's key is the text before its first colon and contains no colon; key, colon and rejoined value give the line back; a line without a colon is all key, with an empty value |
| PdfInfo.Convert | helpers/pdf2html.py:442-446 | keys outside `PDFINFO_CONVERT_TO_INT` keep the stripped text; the listed keys (`Pages`) can only hold integers |
| PdfInfo.LineOfKeyAndValue | helpers/pdf2html.py:439-440 | a line made of a colon-free key, a colon and a colon-free value splits back into that key and that value |
| PdfInfo.PageCountValueRead | helpers/pdf2html.py:442-446 | a `Pages` value holding a number printed by `str`, after any whitespace, converts back to that number |
| PdfInfo.PagesLineParsed | helpers/pdf2html.py:437-449 | output whose only line is `Pages:`, whitespace and a number gives the dictionary `{"Pages": number}` |
| PdfInfo.ParseLines | helpers/pdf2html.py:437-449 | the loop and the `Pages` check return a dictionary only when it holds `Pages` with an integer; `ParseLinesSpec` gives the if-and-only-if and the contents |
| PdfInfo.ParseInfo | helpers/pdf2html.py:437-451 | a dictionary is returned only when it holds `Pages` with an integer value |
| PdfInfo.ParseLinesSpec | helpers/pdf2html.py:437-449 | parsing succeeds exactly when every `Pages` line carries an integer and at least one `Pages` line exists; the dictionary then holds exactly the non-empty keys that occur, each with the converted value of its last line |
| PdfInfo.EntriesSucceed | helpers/pdf2html.py:438-446 | the loop raises exactly when some line with a non-empty key cannot be converted |
| PdfInfo.EntriesMatchLastValue | helpers/pdf2html.py:438-446 | empty keys are skipped and a later line overwrites an earlier one with the same key |
| PyInt.ParseInt | helpers/pdf2html.py:443 | `int()` accepts only text that starts with a digit or a sign, and gives a negative number only after `-`; `ParseIntToString` shows it reads back every `str(n)` |
| PyInt.IntToString | helpers/pdf2html.py:330 | `str(n)` is non-empty and starts with `-` exactly when `n` is negative; `ParseIntToString` pairs it with `int()` |
| PyInt.ParseIntToString | helpers/pdf2html.py:330 | `int(str(n)) == n`, so a page number passed as `str(first_page)` is the number itself |
| PyStr.Split | helpers/pdf2html.py:438-440 | `split` gives at least one piece, none contains the separator, and joining them back with it gives the string |
| PyStr.SplitUnique | helpers/pdf2html.py:438-440 | the pieces are the only separator-free cut that joins back to the string, so the contract of `split` determines it |
| PyStr.Strip | helpers/pdf2html.py:443-445 | `strip()` gives a slice of the text that neither starts nor ends with whitespace, with only whitespace before it and after it |
| PyStr.StripOfPadded | helpers/pdf2html.py:443-445 | `strip()` gives back text that does not start or end with whitespace, whatever whitespace is put in front of it |
| PyStr.Lower | upload/manager.py:7 | `lower()` keeps the length and lower-cases each ASCII letter in place; `LowerLower` in `Upload` shows it is idempotent |
| PyStr.SplitLast | upload/manager.py:7 | `rsplit('.', 1)` cuts the name at a dot with no dot after it |
| Conversion.Stem | helpers/pdf2html.py:109 | `".".join(name.split('.')[:-1])` is the text before the last dot, and empty for a name without a dot |
| Conversion.StemDropsLastExtension | helpers/pdf2html.py:109 | the stem used to name the PDF copy drops exactly the text from the last dot on |
| Conversion.StemOfUndottedName | helpers/pdf2html.py:109 | a base name without a dot has the empty stem |
| CommandPath.AbsJoin | helpers/pdf2html.py:110 | `abspath(join(d, name))` for a `mkdtemp` folder stays under the folder's root; the empty name and `.` give the folder, `..` its parent, and any other name a path inside the folder (`AbsJoinOrdinary` and `AbsJoinTrimmed` give it exactly) |
| Conversion.TempPdfPath | helpers/pdf2html.py:109-110 | the PDF copy's path is the stem joined to the temporary folder, made absolute with `abspath`, plus `.pdf`; it ends in `.pdf` |
| Conversion.TempPdfPathKeepsStem | helpers/pdf2html.py:109-110 | for a stem other than `""`, `.` and `..` (and, on Windows, not ending in a dot or a space), the copy of `folder/stem.ext` is `stem.pdf` inside the temporary folder: the source folder and the last extension are dropped |
| Conversion.UndottedNameCopiedBesideTempDir | helpers/pdf2html.py:109-110 | a base name without a dot, as the `mkstemp` names from `convert_from_bytes` (lines 264-270) are, gives the copy `<temporary folder>.pdf`: `abspath` drops the separator `join` added, so the copy lies beside the folder, not inside it |
| Conversion.DoubleDotStemLeavesTempDir | helpers/pdf2html.py:109-110 | a base name like `...x` has the stem `..`, so the copy is the temporary folder's parent plus `.pdf`, outside the temporary folder |
| Conversion.WindowsTrimsStem | helpers/pdf2html.py:110 | on Windows the dots and spaces that end the stem are dropped by the full-path rules, so `report..pdf` is copied as `report.pdf` |
| Conversion.FinalExtension | helpers/pdf2html.py:87-89 | `final_extension` is `xml` exactly when `xml` is truthy and `html` otherwise; the code reads it nowhere afterwards |
| Conversion.PlanConversion | helpers/pdf2html.py:85-143 | it fails with the `pdfinfo` error exactly when `pdfinfo`'s output fails to parse; when `pdftohtml` is started, its argument list starts with the `pdftohtml` path and the path of the PDF copy, and holds no `None` (`ConversionPages` and `ConversionOptions` state the rest of the list) |
| Conversion.ConversionRange | helpers/pdf2html.py:85-143 | after a successful `pdfinfo`, nothing is converted exactly when the normalised range is empty, and the only other failure the model has is `Popen`'s; otherwise the range starts at the requested first page (1 when absent) and ends no later than the reported page count |
| Conversion.NoneArgumentRefused | helpers/pdf2html.py:114-143 | with pages to convert, `Popen` raises `TypeError` exactly when `userpw` is given without `ownerpw`, because the list then holds `None` |
| Conversion.ConversionOptions | helpers/pdf2html.py:114-136 | when `pdftohtml` runs, everything from position 8 on is exactly what the caller's own options ask for, in `_build_command`'s order: replacing the page range changes no other option |
| PdfToHtmlCommand.LaterStepsIgnorePages | helpers/pdf2html.py:329-389 | `first_page` and `last_page` are read only by the page options: every option after them is the same whatever pages are given |
| Conversion.ConversionPages | helpers/pdf2html.py:107-136 | when `pdftohtml` runs, positions 2 to 7 of its arguments are `-f` with the normalised first page, then `-l` with the normalised last page, twice |
| Upload.Extension | upload/manager.py:7 | there is an extension exactly when the name has a dot, and it contains no dot |
| Upload.AllowedFile | upload/manager.py:6-7 | `allowed_file`: a name without a dot is never allowed; `AllowedFileIffLastExtension` gives the full if-and-only-if |
| Upload.AllowedFileIffLastExtension | upload/manager.py:7 | a name is allowed exactly when, after its last dot, comes text whose lower-cased form is in the allowed list |
| Upload.OnlyLastExtensionCounts | upload/manager.py:7 | `stem.ext` is allowed exactly when `ext` is, whatever the stem, so `a.tar.zip` is judged by `zip` |
| Upload.TrailingDotIsEmptyExtension | upload/manager.py:7 | a name ending in a dot has the empty extension and is allowed exactly when `""` is listed |
| Upload.FilenameCaseIgnored | upload/manager.py:7 | the case of the file name does not matter, so `X.PDF` is judged like `x.pdf` |
| Upload.MatchedEntryIsLowerCase | upload/manager.py:7 | the allowed list is not lower-cased: an accepted name's lower-cased extension is itself a listed entry, and that entry has no upper-case letter |
| Upload.UpperCaseEntryNeverMatches | upload/manager.py:7 | an entry with an upper-case letter never matches, so adding it to the list accepts no further name |
| Upload.UploadTo | upload/manager.py:10-27 | only POST is handled; an accepted file (passed to `secure_filename` and `file.save`) is the one uploaded and has a non-empty name; a refusal flashes `Allowed file types are ` followed by the list joined with `,` |
| Upload.UploadAcceptsIffAllowed | upload/manager.py:11-27 | a file is accepted (passed to `secure_filename` and `file.save`) exactly for a POST with a non-empty name whose extension is allowed, or any non-empty name when there is no list; every POST ends with a flashed message |
| Upload.EmptyNameRefusedFirst | upload/manager.py:17-19 | an empty file name is refused before the extension check, even when there is no list |
| Upload.NoListAcceptsAnyName | upload/manager.py:20-24 | without a list every non-empty name is accepted (passed to `secure_filename` and `file.save`), dotted or not |

## Left out

- The processes: the `Popen` calls to `pdftohtml`, `pdfinfo` and `pdfinfo -v` (`_get_poppler_version`), `LD_LIBRARY_PATH`, and the `OSError` that becomes `PDFInfoNotInstalledError`. The model starts from `pdfinfo`'s output as a string.
- The bytes-to-text step: decoding as UTF-8 with `"ignore"` is not modelled. The output is taken as already-decoded text.
- The file system: `mkdtemp`, `copyfile`, `copy_tree`, `replace_in_file`, image embedding, `center_pages`, titles, `output_file`/`output_folder` copying and clean-up. `mkdtemp` (line 102) and `copyfile` (line 112) run before the argument list is built; the model takes the folder `mkdtemp` returns as a parameter. The rest runs after `pdftohtml`.
- Conversion.PlanConversion: the exceptions `shutil.copyfile` (line 112) can raise before `_build_command` and `Popen` are not modelled. Examples are a missing or unreadable PDF, or a copy target that may not be written, such as the parent of the temporary folder for a `..` stem (`PermissionError`). The model's only failures are the `pdfinfo` error and `Popen`'s `TypeError`.
- The `pathlib.PurePath` arguments (lines 72-79): a `pdf_path`, `output_folder` or `poppler_path` given as a path object is turned into a string with `as_posix()`. The model takes these arguments as strings. On Windows `as_posix()` writes forward slashes, which the modelled `os.path` functions also treat as separators.
- `convert_from_bytes`: it only writes the bytes to a temporary file and calls `convert_from_path`.
- `strict` and the `err` check after `pdftohtml` runs: the model stops at the command.
- The `embed_images` reset when `single_file` is not set: it only affects the file handling left out above.
- Conversion.TempPdfPath: `os.path.abspath` is modelled only for a temporary folder in the form `mkdtemp` returns: absolute, under a drive letter on Windows, not ending in a separator, and in normal form (no doubled separator, no `.` or `..` component, only backslashes on Windows), and for a final name without separators. UNC temporary folders are not modelled. `normpath` handles the empty name, `.` and `..`. On Windows, the Win32 full-path rules are modelled only as dropping trailing dots and spaces.
- Conversion.TempPdfPath: `os.path.basename` is modelled as the text after the last separator. On Windows a colon also ends the component, whereas `ntpath` splits off only a leading drive.
- CommandPath.GetCommandPath: `os.path.join` is modelled for one relative file name. The `ntpath` handling of drives other than a bare `X:` and of UNC prefixes is not modelled.
- PyStr.Strip: whitespace is Python's `str.isspace()` set. Only `strip()` without arguments is modelled.
- PyStr.Lower, Upload.FilenameCaseIgnored: only ASCII letters are folded. Python's full Unicode `lower()` is context-dependent: `"A.Σ".lower()` ends in `ς`, but `"Σ".lower()` is `σ`. So the lemma would not hold for such names.
- PyInt.ParseInt: `int()` on non-ASCII decimal digits, such as Arabic-Indic or full-width ones, is not modelled. The model refuses such text where Python reads a number. `pdfinfo` prints page counts in ASCII digits.
- PyInt.ParseIntToString, PdfInfo.PageCountValueRead: the integers are unbounded. Python 3.11 and later, and the 2022 security releases, raise `ValueError` when `int()` or `str()` converts more than 4300 digits. There, a `Pages` value that long raises `PDFPageCountError`, while the model reads the number.
- `zoom`, `output_encoding`, `image_fmt`, `word_break` and the passwords are modelled as strings. The code passes them through as given, whatever their type. So `Popen`'s `TypeError` is modelled only for the `None` that the `userpw` test can add.
- PdfToHtmlCommand.BuildCommand: `_build_command` appends to the caller's list in place and returns that same list object. The model returns a new value. The only caller rebinds `args` to the result (line 114), so the two agree there.
- Conversion.FinalExtension: the code computes `final_extension` and never reads it. The model keeps it in `Run` only as the extension the output would have.
- Upload.UploadTo: the Flask request, `secure_filename`, `file.save` and `redirect` are not modelled. The outcome records which name is accepted, that is passed to `secure_filename` and `file.save`, and which message is flashed. The name stored is the sanitised one: `../../a.pdf` is stored as `a.pdf`. A name that `secure_filename` reduces to `""`, such as `...`, `___` or `中文`, makes `file.save` open the folder itself and raise `IsADirectoryError`: nothing is saved and nothing is flashed, where the model reports `Accepted` with the success message. `file` is truthy whenever its name is non-empty, so the `file and` test adds nothing.
- The heading-hierarchy synthesis is not part of this model: none of the modelled source files contain it.
- Flask routes, authentication, logging, `processors/conversion.py` and `processing/manager.py` are not part of this model. They are web, file-system and multiprocessing glue.

Behaviours of the code that the model keeps as written:

- `-l` and the last page are emitted twice.
- `userpw` adds `-opw` with the owner password, or with `None` when no owner password is given. `Popen` then raises `TypeError`.
- A PDF whose base name has no dot is copied to `<temporary folder>.pdf`, beside the temporary folder. A stem of `..` puts the copy beside the folder's parent.
- An explicit `first_page` below 1 is not clamped.
- A `Pages` line whose value is not an integer makes `pdfinfo_from_path` fail even if a later `Pages` line is valid, because the loop raises on the first bad conversion.

=== FILE: base.dfy ===
/** Optional values and error-carrying results, standing in for Python's
    `None` and for raised exceptions. */
module Base {

  /** A value that may be absent (Python's `None`). */
  datatype Option<+T> = None | Some(value: T) {

    /** The value, or `default` when absent. */
    function GetOr(default: T): T {
      match this
      case Some(v) => v
      case None => default
    }
  }

  /** Either a value or the exception that replaced it. */
  datatype Result<+T, +E> = Success(value: T) | Failure(error: E)
}

=== FILE: build_command.dfy ===
/** `_build_command`: the `pdftohtml` argument list built from the
    conversion options. */
module PdfToHtmlCommand {
  import opened Base
  import opened PyInt

  /** An element of the Python argument list: a string, or `None` (which the
      list can hold when `userpw` is given without `ownerpw`). */
  datatype Token = Str(text: string) | NoneToken

  /** A keyword argument that is only checked for truthiness: `None` and
      `False` are both falsy. */
  type Flag = Option<bool>

  predicate Truthy(f: Flag) { f == Some(true) }

  /** The keyword arguments of `_build_command` after `args` and `pdf_path`,
      in the order the function declares them. */
  datatype Options = Options(
    firstPage: Option<int>,
    lastPage: Option<int>,
    dotpdfToLink: Flag,
    complexStyles: Flag,
    singleFile: Flag,
    noImages: Flag,
    noFrames: Flag,
    zoom: Option<string>,
    xml: Flag,
    noCoordRounding: Flag,
    outputEncoding: Option<string>,
    ownerpw: Option<string>,
    userpw: Option<string>,
    includeHidden: Flag,
    imageFmt: Option<string>,
    noParagraphMerge: Flag,
    overrideDrm: Flag,
    wordBreak: Option<string>,
    useFontFullName: Flag)

  /** The `pdftohtml` options that stand alone. */
  datatype Switch =
    | DotPdfToLink | ComplexStyles | SingleFile | NoImages | NoFrames | Xml
    | NoRoundedCoordinates | Hidden | NoMerge | NoDrm | FontFullName

  /** The `pdftohtml` options followed by one argument. */
  datatype Setting = FirstPage | LastPage | Zoom | Encoding | OwnerPassword | ImageFormat | WordBreak

  function SwitchText(s: Switch): string
  {
    match s
    case DotPdfToLink => "-p"
    case ComplexStyles => "-c"
    case SingleFile => "-s"
    case NoImages => "-i"
    case NoFrames => "-noframes"
    case Xml => "-xml"
    case NoRoundedCoordinates => "-noRoundedCoordinates"
    case Hidden => "-hidden"
    case NoMerge => "-nomerge"
    case NoDrm => "-nodrm"
    case FontFullName => "-fontfullname"
  }

  function SettingText(s: Setting): string
  {
    match s
    case FirstPage => "-f"
    case LastPage => "-l"
    case Zoom => "-zoom"
    case Encoding => "-enc"
    case OwnerPassword => "-opw"
    case ImageFormat => "-fmt"
    case WordBreak => "-wbt"
  }

  /** The switch a token names, if any. */
  function SwitchNamed(text: string): (r: Option<Switch>)
    ensures r.Some? ==> SwitchText(r.value) == text
  {
    if text == "-p" then Some(DotPdfToLink)
    else if text == "-c" then Some(ComplexStyles)
    else if text == "-s" then Some(SingleFile)
    else if text == "-i" then Some(NoImages)
    else if text == "-noframes" then Some(NoFrames)
    else if text == "-xml" then Some(Xml)
    else if text == "-noRoundedCoordinates" then Some(NoRoundedCoordinates)
    else if text == "-hidden" then Some(Hidden)
    else if text == "-nomerge" then Some(NoMerge)
    else if text == "-nodrm" then Some(NoDrm)
    else if text == "-fontfullname" then Some(FontFullName)
    else None
  }

  /** The setting a token names, if any. */
  function SettingNamed(text: string): (r: Option<Setting>)
    ensures r.Some? ==> SettingText(r.value) == text
  {
    if text == "-f" then Some(FirstPage)
    else if text == "-l" then Some(LastPage)
    else if text == "-zoom" then Some(Zoom)
    else if text == "-enc" then Some(Encoding)
    else if text == "-opw" then Some(OwnerPassword)
    else if text == "-fmt" then Some(ImageFormat)
    else if text == "-wbt" then Some(WordBreak)
    else None
  }

  lemma NamesAreRecognised(sw: Switch, st: Setting)
    ensures SwitchNamed(SwitchText(sw)) == Some(sw)
    ensures SettingNamed(SettingText(st)) == Some(st)
    ensures SwitchNamed(SettingText(st)) == None
  {
  }

  /** One option as it appears on the command line. */
  datatype Opt = On(switch: Switch) | Set(setting: Setting, arg: Token)

  /** The tokens of one option. */
  function OptTokens(opt: Opt): seq<Token>
  {
    match opt
    case On(sw) => [Str(SwitchText(sw))]
    case Set(st, arg) => [Str(SettingText(st)), arg]
  }

  /** The tokens of a list of options, in order. */
  function Encode(opts: seq<Opt>): seq<Token>
  {
    if opts == [] then [] else OptTokens(opts[0]) + Encode(opts[1..])
  }

  /** Reads a token list back as options: a switch name stands alone, a
      setting name takes the next token as its argument; anything else is
      not an option list. */
  function Decode(ts: seq<Token>): Option<seq<Opt>>
    decreases |ts|
  {
    if ts == [] then Some([])
    else if ts[0].NoneToken? then None
    else if SwitchNamed(ts[0].text).Some? then
      match Decode(ts[1..])
      case Some(rest) => Some([On(SwitchNamed(ts[0].text).value)] + rest)
      case None => None
    else if SettingNamed(ts[0].text).Some? && |ts| >= 2 then
      match Decode(ts[2..])
      case Some(rest) => Some([Set(SettingNamed(ts[0].text).value, ts[1])] + rest)
      case None => None
    else None
  }

  lemma {:induction false} EncodeConcat(a: seq<Opt>, b: seq<Opt>)
    ensures Encode(a + b) == Encode(a) + Encode(b)
  {
    if a != [] {
      assert (a + b)[1..] == a[1..] + b;
      EncodeConcat(a[1..], b);
    } else {
      assert a + b == b;
    }
  }

  /** Reading back the tokens of a list of options gives the list. */
  lemma {:induction false} DecodeEncode(opts: seq<Opt>)
    ensures Decode(Encode(opts)) == Some(opts)
  {
    if opts != [] {
      var ts := Encode(opts);
      var head := opts[0];
      DecodeEncode(opts[1..]);
      assert ts == OptTokens(head) + Encode(opts[1..]);
      assert opts == [head] + opts[1..];
      match head
      case On(sw) =>
        NamesAreRecognised(sw, FirstPage);
        assert ts[1..] == Encode(opts[1..]);
      case Set(st, _) =>
        NamesAreRecognised(DotPdfToLink, st);
        assert ts[2..] == Encode(opts[1..]);
    }
  }

  /** A token list that reads as options is exactly the tokens of those
      options. */
  lemma {:induction false} EncodeDecode(ts: seq<Token>)
    ensures Decode(ts).Some? ==> Encode(Decode(ts).value) == ts
    decreases |ts|
  {
    if ts != [] && Decode(ts).Some? {
      var opts := Decode(ts).value;
      if SwitchNamed(ts[0].text).Some? {
        EncodeDecode(ts[1..]);
        assert opts[1..] == Decode(ts[1..]).value;
        assert ts == [ts[0]] + ts[1..];
      } else {
        EncodeDecode(ts[2..]);
        assert opts[1..] == Decode(ts[2..]).value;
        assert ts == [ts[0], ts[1]] + ts[2..];
      }
    }
  }

  /** `[x]` when an `if` adds `x`, nothing otherwise. */
  function Once<T>(present: bool, x: T): seq<T>
  {
    if present then [x] else []
  }

  /** The Python value of an optional string argument. */
  function ValueToken(v: Option<string>): Token
  {
    if v.Some? then Str(v.value) else NoneToken
  }

  /** `str(page)` for a page number that is present. */
  function PageToken(p: Option<int>): Token
  {
    Str(IntToString(p.GetOr(0)))
  }

  /** The number of option-adding `if`s in `_build_command`. */
  const StepCount: nat := 20

  /** What the `i`-th option-adding `if` of `_build_command` contributes, in
      the function's order. Steps 1 and 2 are the two identical `-l` tests;
      step 13, the `userpw` test, carries `ownerpw` as the code does. */
  function Step(o: Options, i: nat): seq<Opt>
  {
    match i
    case 0 => Once(o.firstPage.Some?, Set(FirstPage, PageToken(o.firstPage)))
    case 1 => Once(o.lastPage.Some?, Set(LastPage, PageToken(o.lastPage)))
    case 2 => Once(o.lastPage.Some?, Set(LastPage, PageToken(o.lastPage)))
    case 3 => Once(Truthy(o.dotpdfToLink), On(DotPdfToLink))
    case 4 => Once(Truthy(o.complexStyles), On(ComplexStyles))
    case 5 => Once(Truthy(o.singleFile), On(SingleFile))
    case 6 => Once(Truthy(o.noImages), On(NoImages))
    case 7 => Once(Truthy(o.noFrames), On(NoFrames))
    case 8 => Once(o.zoom.Some?, Set(Zoom, ValueToken(o.zoom)))
    case 9 => Once(Truthy(o.xml), On(Xml))
    case 10 => Once(Truthy(o.noCoordRounding), On(NoRoundedCoordinates))
    case 11 => Once(o.outputEncoding.Some?, Set(Encoding, ValueToken(o.outputEncoding)))
    case 12 => Once(o.ownerpw.Some?, Set(OwnerPassword, ValueToken(o.ownerpw)))
    case 13 => Once(o.userpw.Some?, Set(OwnerPassword, ValueToken(o.ownerpw)))
    case 14 => Once(Truthy(o.includeHidden), On(Hidden))
    case 15 => Once(o.imageFmt.Some?, Set(ImageFormat, ValueToken(o.imageFmt)))
    case 16 => Once(Truthy(o.noParagraphMerge), On(NoMerge))
    case 17 => Once(Truthy(o.overrideDrm), On(NoDrm))
    case 18 => Once(o.wordBreak.Some?, Set(WordBreak, ValueToken(o.wordBreak)))
    case 19 => Once(Truthy(o.useFontFullName), On(FontFullName))
    case _ => []
  }

  /** The steps of `_build_command` as a function of their position. */
  function Steps(o: Options): nat -> seq<Opt>
  {
    (i: nat) => Step(o, i)
  }

  /** What steps `i` up to (not including) `n` of a step function add, in
      order. */
  function Flat(f: nat -> seq<Opt>, i: nat, n: nat): seq<Opt>
    decreases n - i
  {
    if i >= n then [] else f(i) + Flat(f, i + 1, n)
  }

  /** Everything `_build_command` appends after the PDF path. */
  function Requested(o: Options): seq<Opt>
  {
    Flat(Steps(o), 0, StepCount)
  }

  /** `_build_command(args, pdf_path, ...)`: `args` is kept as it is, the
      PDF path follows it, and then come the tokens of the requested options. */
  function BuildCommand(args: seq<Token>, pdfPath: string, o: Options): (r: seq<Token>)
    ensures |r| > |args| && r[..|args|] == args && r[|args|] == Str(pdfPath)
  {
    args + [Str(pdfPath)] + Encode(Requested(o))
  }

  /** What follows the PDF path reads back as exactly the requested
      options. */
  lemma BuildCommandReadsBack(args: seq<Token>, pdfPath: string, o: Options)
    ensures Decode(BuildCommand(args, pdfPath, o)[|args| + 1..]) == Some(Requested(o))
  {
    var r := BuildCommand(args, pdfPath, o);
    assert r[|args| + 1..] == Encode(Requested(o));
    DecodeEncode(Requested(o));
  }

  // Sequence facts, stated generically so that the solver does not look
  // into the steps while it uses them.

  lemma HeadTailOfConcat<T>(a: seq<T>, b: seq<T>)
    requires a != []
    ensures (a + b)[0] == a[0] && (a + b)[1..] == a[1..] + b
  {
  }

  lemma AppendAssoc<T>(x: seq<T>, y: seq<T>, z: seq<T>)
    ensures x + (y + z) == x + y + z
  {
  }

  lemma AppendEmpty<T>(x: seq<T>, y: seq<T>)
    requires y == []
    ensures x + y == x && y + x == x
  {
  }

  lemma FlatUnfold(f: nat -> seq<Opt>, i: nat, n: nat)
    requires i < n
    ensures Flat(f, i, n) == f(i) + Flat(f, i + 1, n)
  {
  }

  lemma {:induction false} FlatSplit(f: nat -> seq<Opt>, i: nat, m: nat, n: nat)
    requires i <= m <= n
    ensures Flat(f, i, n) == Flat(f, i, m) + Flat(f, m, n)
    decreases m - i
  {
    if i < m {
      FlatUnfold(f, i, n);
      FlatUnfold(f, i, m);
      FlatSplit(f, i + 1, m, n);
      AppendAssoc(f(i), Flat(f, i + 1, m), Flat(f, m, n));
    } else {
      AppendEmpty(Flat(f, m, n), Flat(f, i, m));
    }
  }

  lemma {:induction false} FlatEqual(f: nat -> seq<Opt>, g: nat -> seq<Opt>, i: nat, n: nat)
    requires forall k :: i <= k < n ==> f(k) == g(k)
    ensures Flat(f, i, n) == Flat(g, i, n)
    decreases n - i
  {
    if i < n {
      FlatEqual(f, g, i + 1, n);
    }
  }

  /** How many times a switch occurs in a list of options. */
  function SwitchCount(opts: seq<Opt>, sw: Switch): nat
  {
    if opts == [] then 0
    else (if opts[0] == On(sw) then 1 else 0) + SwitchCount(opts[1..], sw)
  }

  /** The argument one option gives a setting: its own, if it sets it. */
  function ArgOf(opt: Opt, st: Setting): seq<Token>
  {
    if opt.Set? && opt.setting == st then [opt.arg] else []
  }

  /** The arguments a setting is given in a list of options, in order. */
  function SettingArgs(opts: seq<Opt>, st: Setting): seq<Token>
  {
    if opts == [] then [] else ArgOf(opts[0], st) + SettingArgs(opts[1..], st)
  }

  lemma {:induction false} SwitchCountConcat(a: seq<Opt>, b: seq<Opt>, sw: Switch)
    ensures SwitchCount(a + b, sw) == SwitchCount(a, sw) + SwitchCount(b, sw)
  {
    if a == [] {
      AppendEmpty(b, a);
    } else {
      HeadTailOfConcat(a, b);
      SwitchCountConcat(a[1..], b, sw);
    }
  }

  lemma {:induction false} SettingArgsConcat(a: seq<Opt>, b: seq<Opt>, st: Setting)
    ensures SettingArgs(a + b, st) == SettingArgs(a, st) + SettingArgs(b, st)
  {
    if a == [] {
      AppendEmpty(b, a);
    } else {
      HeadTailOfConcat(a, b);
      SettingArgsConcat(a[1..], b, st);
      AppendAssoc(ArgOf(a[0], st), SettingArgs(a[1..], st), SettingArgs(b, st));
    }
  }

  /** A switch that no step but `j` adds occurs in the whole list as often
      as in step `j`. */
  lemma {:induction false} SwitchCountFlat(f: nat -> seq<Opt>, i: nat, n: nat, sw: Switch, j: nat)
    requires forall k :: i <= k < n && k != j ==> SwitchCount(f(k), sw) == 0
    ensures SwitchCount(Flat(f, i, n), sw) == if i <= j < n then SwitchCount(f(j), sw) else 0
    decreases n - i
  {
    if i < n {
      FlatUnfold(f, i, n);
      SwitchCountConcat(f(i), Flat(f, i + 1, n), sw);
      SwitchCountFlat(f, i + 1, n, sw, j);
    }
  }

  /** Steps that give a setting nothing give it nothing together. */
  lemma {:induction false} SettingArgsNone(f: nat -> seq<Opt>, i: nat, n: nat, st: Setting)
    requires forall k :: i <= k < n ==> SettingArgs(f(k), st) == []
    ensures SettingArgs(Flat(f, i, n), st) == []
    decreases n - i
  {
    if i < n {
      FlatUnfold(f, i, n);
      SettingArgsConcat(f(i), Flat(f, i + 1, n), st);
      SettingArgsNone(f, i + 1, n, st);
      AppendEmpty(SettingArgs(f(i), st), SettingArgs(Flat(f, i + 1, n), st));
    }
  }

  /** A setting that only steps `lo` up to `hi` give arguments gets from the
      whole list what it gets from those steps. */
  lemma SettingArgsWithin(f: nat -> seq<Opt>, i: nat, n: nat, st: Setting, lo: nat, hi: nat)
    requires i <= lo <= hi <= n
    requires forall k :: i <= k < n && !(lo <= k < hi) ==> SettingArgs(f(k), st) == []
    ensures SettingArgs(Flat(f, i, n), st) == SettingArgs(Flat(f, lo, hi), st)
  {
    FlatSplit(f, i, lo, n);
    FlatSplit(f, lo, hi, n);
    SettingArgsConcat(Flat(f, i, lo), Flat(f, lo, n), st);
    SettingArgsConcat(Flat(f, lo, hi), Flat(f, hi, n), st);
    SettingArgsNone(f, i, lo, st);
    SettingArgsNone(f, hi, n, st);
    AppendEmpty(SettingArgs(Flat(f, lo, n), st), SettingArgs(Flat(f, i, lo), st));
    AppendEmpty(SettingArgs(Flat(f, lo, hi), st), SettingArgs(Flat(f, hi, n), st));
  }

  /** The arguments of one or two consecutive steps. */
  lemma SettingArgsOfWindow(f: nat -> seq<Opt>, lo: nat, hi: nat, st: Setting)
    requires hi == lo + 1 || hi == lo + 2
    ensures SettingArgs(Flat(f, lo, hi), st)
            == SettingArgs(f(lo), st) + (if hi == lo + 2 then SettingArgs(f(lo + 1), st) else [])
  {
    FlatUnfold(f, lo, hi);
    SettingArgsConcat(f(lo), Flat(f, lo + 1, hi), st);
    if hi == lo + 2 {
      FlatUnfold(f, lo + 1, hi);
      SettingArgsConcat(f(lo + 1), Flat(f, hi, hi), st);
      AppendEmpty(SettingArgs(f(lo + 1), st), SettingArgs(Flat(f, hi, hi), st));
    } else {
      AppendEmpty(SettingArgs(f(lo), st), SettingArgs(Flat(f, hi, hi), st));
    }
  }

  /** The keyword argument behind each switch. */
  function FlagFor(o: Options, sw: Switch): Flag
  {
    match sw
    case DotPdfToLink => o.dotpdfToLink
    case ComplexStyles => o.complexStyles
    case SingleFile => o.singleFile
    case NoImages => o.noImages
    case NoFrames => o.noFrames
    case Xml => o.xml
    case NoRoundedCoordinates => o.noCoordRounding
    case Hidden => o.includeHidden
    case NoMerge => o.noParagraphMerge
    case NoDrm => o.overrideDrm
    case FontFullName => o.useFontFullName
  }

  /** The arguments each setting should be given: the page numbers as
      decimal text, `-l` twice, the string options as given, and `-opw` the
      owner password once for `ownerpw` and once more for `userpw`. */
  function ExpectedArgs(o: Options, st: Setting): seq<Token>
  {
    match st
    case FirstPage => Once(o.firstPage.Some?, PageToken(o.firstPage))
    case LastPage => Once(o.lastPage.Some?, PageToken(o.lastPage)) + Once(o.lastPage.Some?, PageToken(o.lastPage))
    case Zoom => Once(o.zoom.Some?, ValueToken(o.zoom))
    case Encoding => Once(o.outputEncoding.Some?, ValueToken(o.outputEncoding))
    case OwnerPassword => Once(o.ownerpw.Some?, ValueToken(o.ownerpw)) + Once(o.userpw.Some?, ValueToken(o.ownerpw))
    case ImageFormat => Once(o.imageFmt.Some?, ValueToken(o.imageFmt))
    case WordBreak => Once(o.wordBreak.Some?, ValueToken(o.wordBreak))
  }

  /** The step that adds each switch. */
  function SwitchStep(sw: Switch): nat
  {
    match sw
    case DotPdfToLink => 3
    case ComplexStyles => 4
    case SingleFile => 5
    case NoImages => 6
    case NoFrames => 7
    case Xml => 9
    case NoRoundedCoordinates => 10
    case Hidden => 14
    case NoMerge => 16
    case NoDrm => 17
    case FontFullName => 19
  }

  /** The first and the last step that add each setting. */
  function SettingSteps(st: Setting): (nat, nat)
  {
    match st
    case FirstPage => (0, 0)
    case LastPage => (1, 2)
    case Zoom => (8, 8)
    case Encoding => (11, 11)
    case OwnerPassword => (12, 13)
    case ImageFormat => (15, 15)
    case WordBreak => (18, 18)
  }

  lemma StepSwitchCount(o: Options, i: nat, sw: Switch)
    ensures SwitchCount(Step(o, i), sw) == if i == SwitchStep(sw) && Truthy(FlagFor(o, sw)) then 1 else 0
  {
  }

  lemma StepSettingArgs(o: Options, i: nat, st: Setting)
    ensures !(SettingSteps(st).0 <= i <= SettingSteps(st).1) ==> SettingArgs(Step(o, i), st) == []
  {
  }

  /** Every truthy flag contributes its switch exactly once and a falsy one
      not at all. */
  lemma RequestedSwitches(o: Options)
    ensures forall sw :: SwitchCount(Requested(o), sw) == (if Truthy(FlagFor(o, sw)) then 1 else 0)
  {
    forall sw
      ensures SwitchCount(Requested(o), sw) == (if Truthy(FlagFor(o, sw)) then 1 else 0)
    {
      var j := SwitchStep(sw);
      forall k | 0 <= k < StepCount && k != j
        ensures SwitchCount(Steps(o)(k), sw) == 0
      {
        StepSwitchCount(o, k, sw);
      }
      SwitchCountFlat(Steps(o), 0, StepCount, sw, j);
      StepSwitchCount(o, j, sw);
    }
  }

  lemma SetArgsOnce(c: bool, st: Setting, arg: Token)
    ensures SettingArgs(Once(c, Set(st, arg)), st) == Once(c, arg)
  {
  }

  lemma OtherStepsGiveNothing(o: Options, st: Setting)
    ensures forall k :: 0 <= k < StepCount && !(SettingSteps(st).0 <= k <= SettingSteps(st).1) ==>
              SettingArgs(Steps(o)(k), st) == []
  {
    forall k | 0 <= k < StepCount && !(SettingSteps(st).0 <= k <= SettingSteps(st).1)
      ensures SettingArgs(Steps(o)(k), st) == []
    {
      StepSettingArgs(o, k, st);
    }
  }

  /** A setting gets the arguments of its own steps and no others. */
  lemma RequestedSettingArgs(o: Options, st: Setting, lo: nat, hi: nat)
    requires SettingSteps(st) == (lo, hi) && (hi == lo || hi == lo + 1)
    ensures SettingArgs(Requested(o), st)
            == SettingArgs(Steps(o)(lo), st) + (if hi == lo + 1 then SettingArgs(Steps(o)(hi), st) else [])
  {
    var f := Steps(o);
    OtherStepsGiveNothing(o, st);
    SettingArgsWithin(f, 0, StepCount, st, lo, hi + 1);
    SettingArgsOfWindow(f, lo, hi + 1, st);
  }

  /** Every setting is given exactly the expected arguments, in order. */
  lemma RequestedSettings(o: Options)
    ensures forall st :: SettingArgs(Requested(o), st) == ExpectedArgs(o, st)
  {
    forall st
      ensures SettingArgs(Requested(o), st) == ExpectedArgs(o, st)
    {
      RequestedSetting(o, st);
    }
  }

  /** One setting is given exactly the expected arguments, in order. */
  lemma RequestedSetting(o: Options, st: Setting)
    ensures SettingArgs(Requested(o), st) == ExpectedArgs(o, st)
  {
    match st
    case FirstPage =>
      OneStepSetting(o, st, 0, o.firstPage.Some?, PageToken(o.firstPage));
    case LastPage =>
      TwoStepSetting(o, st, 1, o.lastPage.Some?, PageToken(o.lastPage), o.lastPage.Some?, PageToken(o.lastPage));
    case Zoom =>
      OneStepSetting(o, st, 8, o.zoom.Some?, ValueToken(o.zoom));
    case Encoding =>
      OneStepSetting(o, st, 11, o.outputEncoding.Some?, ValueToken(o.outputEncoding));
    case OwnerPassword =>
      TwoStepSetting(o, st, 12, o.ownerpw.Some?, ValueToken(o.ownerpw), o.userpw.Some?, ValueToken(o.ownerpw));
    case ImageFormat =>
      OneStepSetting(o, st, 15, o.imageFmt.Some?, ValueToken(o.imageFmt));
    case WordBreak =>
      OneStepSetting(o, st, 18, o.wordBreak.Some?, ValueToken(o.wordBreak));
  }

  /** A setting added by step `i` alone. */
  lemma OneStepSetting(o: Options, st: Setting, i: nat, c: bool, arg: Token)
    requires SettingSteps(st) == (i, i) && Step(o, i) == Once(c, Set(st, arg))
    ensures SettingArgs(Requested(o), st) == Once(c, arg)
  {
    RequestedSettingArgs(o, st, i, i);
    assert Steps(o)(i) == Step(o, i);
    SetArgsOnce(c, st, arg);
  }

  /** A setting added by steps `i` and `i + 1`. */
  lemma TwoStepSetting(o: Options, st: Setting, i: nat, c1: bool, a1: Token, c2: bool, a2: Token)
    requires SettingSteps(st) == (i, i + 1)
    requires Step(o, i) == Once(c1, Set(st, a1)) && Step(o, i + 1) == Once(c2, Set(st, a2))
    ensures SettingArgs(Requested(o), st) == Once(c1, a1) + Once(c2, a2)
  {
    RequestedSettingArgs(o, st, i, i + 1);
    assert Steps(o)(i) == Step(o, i) && Steps(o)(i + 1) == Step(o, i + 1);
    SetArgsOnce(c1, st, a1);
    SetArgsOnce(c2, st, a2);
  }

  /** The position of an option in the code's order: the (last) step that
      adds it. */
  function Rank(opt: Opt): nat
  {
    match opt
    case On(sw) => SwitchStep(sw)
    case Set(st, _) => SettingSteps(st).1
  }

  /** Options listed in the code's order. */
  predicate InCodeOrder(opts: seq<Opt>)
  {
    forall a, b :: 0 <= a < b < |opts| ==> Rank(opts[a]) <= Rank(opts[b])
  }

  /** What step `i` adds: at most one option, ranked `i` or `i + 1`. */
  predicate StepShaped(s: seq<Opt>, i: nat)
  {
    |s| <= 1 && forall k :: 0 <= k < |s| ==> i <= Rank(s[k]) <= i + 1
  }

  lemma StepRank(o: Options, i: nat)
    ensures StepShaped(Step(o, i), i)
  {
  }

  lemma PrependInOrder(head: seq<Opt>, rest: seq<Opt>, i: nat)
    requires StepShaped(head, i)
    requires InCodeOrder(rest) && forall k :: 0 <= k < |rest| ==> i + 1 <= Rank(rest[k])
    ensures InCodeOrder(head + rest)
    ensures forall k :: 0 <= k < |head + rest| ==> i <= Rank((head + rest)[k])
  {
    if head == [] {
      assert head + rest == rest;
    } else {
      var all := head + rest;
      assert forall k :: 1 <= k < |all| ==> all[k] == rest[k - 1];
    }
  }

  lemma {:induction false} FlatInOrder(f: nat -> seq<Opt>, i: nat, n: nat)
    requires forall k :: i <= k < n ==> StepShaped(f(k), k)
    ensures InCodeOrder(Flat(f, i, n))
    ensures forall k :: 0 <= k < |Flat(f, i, n)| ==> i <= Rank(Flat(f, i, n)[k])
    decreases n - i
  {
    if i < n {
      FlatUnfold(f, i, n);
      FlatInOrder(f, i + 1, n);
      PrependInOrder(f(i), Flat(f, i + 1, n), i);
    }
  }

  /** The options come out in the order of the code's tests. */
  lemma RequestedInCodeOrder(o: Options)
    ensures InCodeOrder(Requested(o))
  {
    forall k | 0 <= k < StepCount
      ensures StepShaped(Steps(o)(k), k)
    {
      StepRank(o, k);
    }
    FlatInOrder(Steps(o), 0, StepCount);
  }

  /** The tokens of the two page options, when they are given. */
  function FirstPageTokens(o: Options): seq<Token>
  {
    if o.firstPage.Some? then [Str("-f"), Str(IntToString(o.firstPage.value))] else []
  }

  function LastPageTokens(o: Options): seq<Token>
  {
    if o.lastPage.Some? then [Str("-l"), Str(IntToString(o.lastPage.value))] else []
  }

  lemma FlatFirstThree(f: nat -> seq<Opt>, n: nat)
    requires n >= 3
    ensures Flat(f, 0, n) == f(0) + f(1) + f(2) + Flat(f, 3, n)
  {
    FlatUnfold(f, 0, n);
    FlatUnfold(f, 1, n);
    FlatUnfold(f, 2, n);
  }

  lemma EncodeOfFour(a: seq<Opt>, b: seq<Opt>, c: seq<Opt>, d: seq<Opt>)
    ensures Encode(a + b + c + d) == Encode(a) + Encode(b) + Encode(c) + Encode(d)
  {
    EncodeConcat(a + b + c, d);
    EncodeConcat(a + b, c);
    EncodeConcat(a, b);
  }

  lemma EncodePageSteps(o: Options)
    ensures Encode(Step(o, 0)) == FirstPageTokens(o)
    ensures Encode(Step(o, 1)) == LastPageTokens(o)
    ensures Encode(Step(o, 2)) == LastPageTokens(o)
  {
  }

  /** The tokens after the PDF path open with those of the page steps. */
  lemma RequestedTokensStart(o: Options)
    ensures Encode(Requested(o))
            == FirstPageTokens(o) + LastPageTokens(o) + LastPageTokens(o) + Encode(Flat(Steps(o), 3, StepCount))
  {
    FlatFirstThree(Steps(o), StepCount);
    EncodeOfFour(Step(o, 0), Step(o, 1), Step(o, 2), Flat(Steps(o), 3, StepCount));
    EncodePageSteps(o);
  }

  lemma SlicesOfConcat<T>(r: seq<T>, h: seq<T>, f: seq<T>, l: seq<T>, rest: seq<T>)
    requires r == h + (f + l + l + rest)
    ensures |h| + |f| + 2 * |l| <= |r|
    ensures r[|h|..|h| + |f|] == f
    ensures r[|h| + |f|..|h| + |f| + 2 * |l|] == l + l
  {
    assert r[|h|..|h| + |f|] == (f + l + l + rest)[..|f|];
    assert r[|h| + |f|..|h| + |f| + 2 * |l|] == (f + l + l + rest)[|f|..|f| + 2 * |l|];
  }

  lemma TailOfConcat<T>(r: seq<T>, h: seq<T>, f: seq<T>, l: seq<T>, rest: seq<T>)
    requires r == h + (f + l + l + rest)
    ensures |h| + |f| + 2 * |l| <= |r|
    ensures r[|h| + |f| + 2 * |l|..] == rest
  {
    assert r[|h| + |f| + 2 * |l|..] == (f + l + l + rest)[|f| + 2 * |l|..];
  }

  /** The page options open the option list: `-f` and its page when a first
      page is given, then `-l` and the last page twice when one is given. */
  lemma PageOptionsLead(args: seq<Token>, pdfPath: string, o: Options)
    ensures var r := BuildCommand(args, pdfPath, o);
            var f := FirstPageTokens(o);
            var l := LastPageTokens(o);
            var k := |args| + 1 + |f|;
            && k + 2 * |l| <= |r|
            && r[|args| + 1..k] == f
            && r[k..k + 2 * |l|] == l + l
  {
    BuildCommandStart(args, pdfPath, o);
    LeadSlices(BuildCommand(args, pdfPath, o), args, Str(pdfPath), FirstPageTokens(o), LastPageTokens(o),
               Encode(Flat(Steps(o), 3, StepCount)));
  }

  lemma LeadSlices<T>(r: seq<T>, a: seq<T>, x: T, f: seq<T>, l: seq<T>, rest: seq<T>)
    requires r == a + [x] + (f + l + l + rest)
    ensures var k := |a| + 1 + |f|;
            && k + 2 * |l| <= |r|
            && r[|a| + 1..k] == f
            && r[k..k + 2 * |l|] == l + l
  {
    SlicesOfConcat(r, a + [x], f, l, rest);
  }

  lemma BuildCommandStart(args: seq<Token>, pdfPath: string, o: Options)
    ensures BuildCommand(args, pdfPath, o)
            == args + [Str(pdfPath)]
               + (FirstPageTokens(o) + LastPageTokens(o) + LastPageTokens(o) + Encode(Flat(Steps(o), 3, StepCount)))
  {
    RequestedTokensStart(o);
  }

  /** Whether `userpw` is given changes the list; its value never does: the
      user password itself is not passed on. */
  lemma UserPasswordValueIgnored(args: seq<Token>, pdfPath: string, o: Options, pw: string, pw': string)
    ensures BuildCommand(args, pdfPath, o.(userpw := Some(pw)))
            == BuildCommand(args, pdfPath, o.(userpw := Some(pw')))
  {
    var o1 := o.(userpw := Some(pw));
    var o2 := o.(userpw := Some(pw'));
    forall k | 0 <= k < StepCount
      ensures Steps(o1)(k) == Steps(o2)(k)
    {
      assert Step(o1, k) == Step(o2, k);
    }
    FlatEqual(Steps(o1), Steps(o2), 0, StepCount);
  }

  /** The options after the page options do not depend on the pages: they
      are the same whatever `first_page` and `last_page` hold. */
  lemma LaterStepsIgnorePages(o: Options, first: Option<int>, last: Option<int>)
    ensures Flat(Steps(o.(firstPage := first, lastPage := last)), 3, StepCount) == Flat(Steps(o), 3, StepCount)
  {
    var o' := o.(firstPage := first, lastPage := last);
    forall k | 3 <= k < StepCount
      ensures Steps(o')(k) == Steps(o)(k)
    {
      assert Step(o', k) == Step(o, k);
    }
    FlatEqual(Steps(o'), Steps(o), 3, StepCount);
  }

  /** A non-empty option list holds some switch or some setting argument. */
  lemma SomethingCounted(opts: seq<Opt>)
    ensures opts != [] ==>
              (exists sw :: SwitchCount(opts, sw) > 0) || (exists st :: SettingArgs(opts, st) != [])
  {
    if opts != [] {
      match opts[0]
      case On(sw) =>
        assert SwitchCount(opts, sw) > 0;
      case Set(st, _) =>
        assert SettingArgs(opts, st) != [];
    }
  }

  /** Options that are all absent or falsy add no tokens at all. */
  lemma NothingRequested(args: seq<Token>, pdfPath: string, o: Options)
    requires o.firstPage.None? && o.lastPage.None?
    requires o.zoom.None? && o.outputEncoding.None? && o.ownerpw.None? && o.userpw.None?
    requires o.imageFmt.None? && o.wordBreak.None?
    requires forall sw :: !Truthy(FlagFor(o, sw))
    ensures BuildCommand(args, pdfPath, o) == args + [Str(pdfPath)]
  {
    RequestedSwitches(o);
    RequestedSettings(o);
    SomethingCounted(Requested(o));
  }

  /** A setting given `None` puts `None` among the tokens. */
  lemma {:induction false} NoneArgumentEncoded(opts: seq<Opt>, st: Setting)
    requires NoneToken in SettingArgs(opts, st)
    ensures NoneToken in Encode(opts)
  {
    var head, rest := opts[0], opts[1..];
    assert Encode(opts) == OptTokens(head) + Encode(rest);
    if NoneToken in ArgOf(head, st) {
      assert OptTokens(head)[1] == NoneToken;
    } else {
      NoneArgumentEncoded(rest, st);
    }
  }

  /** A `None` among the tokens is the argument of some setting. */
  lemma {:induction false} NoneTokenIsArgument(opts: seq<Opt>) returns (st: Setting)
    requires NoneToken in Encode(opts)
    ensures NoneToken in SettingArgs(opts, st)
  {
    var head, rest := opts[0], opts[1..];
    assert Encode(opts) == OptTokens(head) + Encode(rest);
    if NoneToken in OptTokens(head) {
      st := head.setting;
      assert ArgOf(head, st) == [NoneToken];
    } else {
      st := NoneTokenIsArgument(rest);
    }
  }

  /** Only the `-opw` that the `userpw` test adds can carry `None`. */
  lemma NoneInExpected(o: Options, st: Setting)
    ensures NoneToken in ExpectedArgs(o, st) <==> st == OwnerPassword && o.userpw.Some? && o.ownerpw.None?
  {
  }

  /** The requested options carry `None` exactly when `userpw` is given
      without `ownerpw`. */
  lemma NoneInRequested(o: Options)
    ensures NoneToken in Encode(Requested(o)) <==> o.userpw.Some? && o.ownerpw.None?
  {
    var req := Requested(o);
    if NoneToken in Encode(req) {
      var st := NoneTokenIsArgument(req);
      assert SettingArgs(req, st) == ExpectedArgs(o, st) by {
        RequestedSettings(o);
      }
      NoneInExpected(o, st);
    }
    if o.userpw.Some? && o.ownerpw.None? {
      assert SettingArgs(req, OwnerPassword) == ExpectedArgs(o, OwnerPassword) by {
        RequestedSettings(o);
      }
      NoneInExpected(o, OwnerPassword);
      NoneArgumentEncoded(req, OwnerPassword);
    }
  }

  /** The list holds `None` exactly when the caller's list did, or when
      `userpw` is given without `ownerpw`: the `userpw` test then appends
      `-opw` with the missing owner password. */
  lemma NoneOnlyFromUserPassword(args: seq<Token>, pdfPath: string, o: Options)
    ensures NoneToken in BuildCommand(args, pdfPath, o)
            <==> NoneToken in args || (o.userpw.Some? && o.ownerpw.None?)
  {
    NoneInRequested(o);
  }
}

=== FILE: command_path.dfy ===
/** `_get_command_path`: where a poppler executable is looked up. */
module CommandPath {
  import opened Base

  /** The poppler tools the helpers start; the source only ever asks for
      these two names. */
  datatype Tool = PdfToHtmlTool | PdfInfoTool

  function ToolName(t: Tool): string
  {
    match t
    case PdfToHtmlTool => "pdftohtml"
    case PdfInfoTool => "pdfinfo"
  }

  /** The host as the helpers see it: the name `platform.system()` returns.
      The same name decides which flavour of `os.path.join` applies. */
  datatype Host = Host(system: string)

  predicate IsWindows(h: Host) { h.system == "Windows" }

  /** Path separators of the host's `os.path`. */
  predicate IsSep(h: Host, ch: char)
  {
    ch == '/' || (IsWindows(h) && ch == '\\')
  }

  /** The separator `os.path.join` inserts. */
  function Sep(h: Host): (ch: char)
    ensures IsSep(h, ch)
  {
    if IsWindows(h) then '\\' else '/'
  }

  /** A file name with no separator in it and, on Windows, no drive colon. */
  predicate IsPlainName(h: Host, name: string)
  {
    forall k :: 0 <= k < |name| ==> !IsSep(h, name[k]) && (IsWindows(h) ==> name[k] != ':')
  }

  /** The executable's file name: `.exe` is appended on Windows only. */
  function ExecutableName(t: Tool, h: Host): (name: string)
    ensures name != [] && IsPlainName(h, name)
  {
    ToolName(t) + (if IsWindows(h) then ".exe" else "")
  }

  predicate EndsWithExe(p: string)
  {
    |p| >= 4 && p[|p| - 4..] == ".exe"
  }

  /** True when `os.path.join(dir, name)` adds no separator: `dir` is empty,
      already ends in a separator, or (on Windows) is a bare drive `X:`. */
  predicate NeedsNoSep(h: Host, dir: string)
  {
    || dir == []
    || IsSep(h, dir[|dir| - 1])
    || (IsWindows(h) && |dir| == 2 && dir[1] == ':')
  }

  /** `os.path.join(dir, name)` for a `name` without separators or a drive. */
  function JoinPath(h: Host, dir: string, name: string): string
  {
    if NeedsNoSep(h, dir) then dir + name else dir + [Sep(h)] + name
  }

  /** `_get_command_path(command, poppler_path)`. */
  function GetCommandPath(t: Tool, h: Host, popplerPath: Option<string>): (r: string)
    ensures popplerPath.None? ==> r == ExecutableName(t, h)
    ensures popplerPath.Some? ==> |popplerPath.value| <= |r| && r[..|popplerPath.value|] == popplerPath.value
    ensures |r| >= |ExecutableName(t, h)| && r[|r| - |ExecutableName(t, h)|..] == ExecutableName(t, h)
    ensures popplerPath.Some? ==>
              |r| - |popplerPath.value| - |ExecutableName(t, h)|
              == (if NeedsNoSep(h, popplerPath.value) then 0 else 1)
    ensures popplerPath.Some? && !NeedsNoSep(h, popplerPath.value) ==> r[|popplerPath.value|] == Sep(h)
  {
    var name := ExecutableName(t, h);
    if popplerPath.Some? then JoinPath(h, popplerPath.value, name) else name
  }

  lemma SuffixOfSuffix(r: string, name: string, k: nat)
    requires k <= |name| <= |r| && r[|r| - |name|..] == name
    ensures r[|r| - k..] == name[|name| - k..]
  {
    assert r[|r| - k..] == r[|r| - |name|..][|name| - k..];
  }

  /** The executable's name ends in `.exe` exactly on Windows. */
  lemma ExecutableSuffix(t: Tool, h: Host)
    ensures |ExecutableName(t, h)| >= 4
    ensures EndsWithExe(ExecutableName(t, h)) <==> IsWindows(h)
  {
    var base := ToolName(t);
    assert |base| >= 7;
    if IsWindows(h) {
      assert ExecutableName(t, h)[|base|..] == ".exe";
    } else {
      assert ExecutableName(t, h) == base;
      assert base[|base| - 4] != '.';
    }
  }

  /** The command path ends in `.exe` exactly on Windows. */
  lemma CommandPathExeOnlyOnWindows(t: Tool, h: Host, popplerPath: Option<string>)
    ensures EndsWithExe(GetCommandPath(t, h, popplerPath)) <==> IsWindows(h)
  {
    var r := GetCommandPath(t, h, popplerPath);
    var name := ExecutableName(t, h);
    ExecutableSuffix(t, h);
    SuffixOfSuffix(r, name, 4);
  }

  /** The text after the last separator (on Windows, after a drive's colon
      too): the path's final component. */
  function LastComponent(h: Host, p: string): (r: string)
    ensures |r| <= |p| && r == p[|p| - |r|..]
    ensures IsPlainName(h, r)
    ensures EndsComponent(h, p[..|p| - |r|])
  {
    if p == [] || IsSep(h, p[|p| - 1]) || (IsWindows(h) && p[|p| - 1] == ':') then []
    else LastComponent(h, p[..|p| - 1]) + [p[|p| - 1]]
  }

  /** A path whose last character ends a component (or the empty path). */
  predicate EndsComponent(h: Host, dir: string)
  {
    dir == [] || IsSep(h, dir[|dir| - 1]) || (IsWindows(h) && dir[|dir| - 1] == ':')
  }

  lemma LastComponentSnoc(h: Host, q: string, ch: char)
    requires !IsSep(h, ch) && (IsWindows(h) ==> ch != ':')
    ensures LastComponent(h, q + [ch]) == LastComponent(h, q) + [ch]
  {
    var p := q + [ch];
    assert p[|p| - 1] == ch && p[..|p| - 1] == q;
  }

  lemma PlainNameParts(h: Host, name: string)
    requires name != [] && IsPlainName(h, name)
    ensures IsPlainName(h, name[..|name| - 1])
    ensures !IsSep(h, name[|name| - 1]) && (IsWindows(h) ==> name[|name| - 1] != ':')
  {
  }

  lemma JoinParts(dir: string, name: string)
    requires name != []
    ensures dir + name == (dir + name[..|name| - 1]) + [name[|name| - 1]]
    ensures name == name[..|name| - 1] + [name[|name| - 1]]
  {
  }

  lemma {:induction false} LastComponentOfJoin(h: Host, dir: string, name: string)
    requires IsPlainName(h, name)
    requires EndsComponent(h, dir)
    ensures LastComponent(h, dir + name) == name
    decreases |name|
  {
    if name == [] {
      assert dir + name == dir;
    } else {
      var last := name[|name| - 1];
      var init := name[..|name| - 1];
      PlainNameParts(h, name);
      LastComponentOfJoin(h, dir, init);
      LastComponentSnoc(h, dir + init, last);
      JoinParts(dir, name);
    }
  }

  /** Whatever the poppler directory, the final component of the command path
      is exactly the executable's file name. */
  lemma CommandPathNamesExecutable(t: Tool, h: Host, popplerPath: Option<string>)
    ensures LastComponent(h, GetCommandPath(t, h, popplerPath)) == ExecutableName(t, h)
  {
    var name := ExecutableName(t, h);
    if popplerPath.Some? {
      var dir := popplerPath.value;
      if NeedsNoSep(h, dir) {
        LastComponentOfJoin(h, dir, name);
      } else {
        LastComponentOfJoin(h, dir + [Sep(h)], name);
        assert dir + [Sep(h)] + name == (dir + [Sep(h)]) + name;
      }
    } else {
      LastComponentOfJoin(h, [], name);
      assert [] + name == name;
    }
  }

  /** Length of the root of an absolute path: `/`, or a drive such as
      `C:\` on Windows. */
  function RootLength(h: Host): nat
  {
    if IsWindows(h) then 3 else 1
  }

  /** `.` or `..` as the component that starts at position `i` of `d`. */
  predicate DotComponentAt(h: Host, d: string, i: nat)
    requires i < |d|
  {
    || (d[i] == '.' && (i + 1 == |d| || IsSep(h, d[i + 1])))
    || (i + 1 < |d| && d[i] == '.' && d[i + 1] == '.' && (i + 2 == |d| || IsSep(h, d[i + 2])))
  }

  /** A folder as `tempfile.mkdtemp()` returns it: absolute and in the normal
      form `normpath` leaves, below the root and not ending in a separator.
      In normal form no separator follows another and no component is `.` or
      `..`; on Windows every separator is a backslash, the root is a drive
      letter, a colon and a backslash, and the full-path rules leave no
      component ending in a dot or a space. */
  predicate IsTempDir(h: Host, d: string)
  {
    && |d| > RootLength(h)
    && (if IsWindows(h) then IsDriveLetter(d[0]) && d[1] == ':' && d[2] == '\\' else d[0] == '/')
    && !IsSep(h, d[|d| - 1])
    && (forall k :: 0 <= k < |d| - 1 && IsSep(h, d[k]) ==> !IsSep(h, d[k + 1]) && !DotComponentAt(h, d, k + 1))
    && (IsWindows(h) ==> forall k :: 0 <= k < |d| ==> d[k] != '/')
    && (IsWindows(h) ==>
          forall k :: 0 <= k < |d| - 1 && IsSep(h, d[k + 1]) ==> d[k] != '.' && d[k] != ' ')
    && (IsWindows(h) ==> d[|d| - 1] != '.' && d[|d| - 1] != ' ')
  }

  predicate IsDriveLetter(ch: char)
  {
    ('A' <= ch <= 'Z') || ('a' <= ch <= 'z')
  }

  /** Position of the last separator, -1 when there is none. */
  function LastSep(h: Host, p: string): (i: int)
    ensures -1 <= i < |p|
    ensures i >= 0 ==> IsSep(h, p[i])
    ensures forall k :: i < k < |p| ==> !IsSep(h, p[k])
  {
    if p == [] then -1
    else if IsSep(h, p[|p| - 1]) then |p| - 1
    else LastSep(h, p[..|p| - 1])
  }

  /** The folder that holds `d`: `d` without its last component, the root
      staying as it is. */
  function Parent(h: Host, d: string): (r: string)
    requires IsTempDir(h, d)
    ensures RootLength(h) <= |r| < |d| && r == d[..|r|]
    ensures forall k :: |r| < k < |d| ==> !IsSep(h, d[k])
    ensures |r| == RootLength(h) || IsSep(h, d[|r|])
  {
    var i := LastSep(h, d);
    assert IsSep(h, d[RootLength(h) - 1]);
    if i < RootLength(h) then d[..RootLength(h)] else d[..i]
  }

  /** The Win32 full-path rule for a path not ending in a separator: its
      trailing dots and spaces are dropped. */
  function TrimDotsSpaces(p: string): (r: string)
    ensures |r| <= |p| && r == p[..|r|]
    ensures r == [] || (r[|r| - 1] != '.' && r[|r| - 1] != ' ')
    ensures forall k :: |r| <= k < |p| ==> p[k] == '.' || p[k] == ' '
  {
    if p != [] && (p[|p| - 1] == '.' || p[|p| - 1] == ' ') then TrimDotsSpaces(p[..|p| - 1]) else p
  }

  /** `os.path.abspath(os.path.join(d, name))` for a folder `d` in the form
      `mkdtemp` returns and a name without separators: `normpath` drops the
      empty name and `.`, and turns `..` into the parent; on Windows the
      full-path rules then drop trailing dots and spaces. */
  function AbsJoin(h: Host, d: string, name: string): (r: string)
    requires IsTempDir(h, d)
    ensures RootLength(h) <= |r| && r[..RootLength(h)] == d[..RootLength(h)]
    ensures name == "" || name == "." ==> r == d
    ensures name == ".." ==> r == Parent(h, d)
    ensures name !in {"", ".", ".."} ==> |r| > |d| && r[..|d| + 1] == d + [Sep(h)]
  {
    var p :=
      if name == "" || name == "." then d
      else if name == ".." then Parent(h, d)
      else JoinPath(h, d, name);
    if IsWindows(h) then
      ParentEndsComponent(h, d);
      assert name !in {"", ".", ".."} ==> p[|d|] == Sep(h);
      TrimDotsSpaces(p)
    else p
  }

  /** On Windows the parent is a bare root or ends in a character other
      than a dot or a space. */
  lemma ParentEndsComponent(h: Host, d: string)
    requires IsWindows(h) && IsTempDir(h, d)
    ensures var q := Parent(h, d);
            |q| == RootLength(h) || (q[|q| - 1] != '.' && q[|q| - 1] != ' ')
  {
    var q := Parent(h, d);
    if |q| > RootLength(h) {
      assert IsSep(h, d[|q|]) && q[|q| - 1] == d[|q| - 1];
    }
  }

  /** A name other than the empty one, `.` and `..` (and, on Windows, not
      ending in a dot or a space) is joined with one separator and kept. */
  lemma AbsJoinOrdinary(h: Host, d: string, name: string)
    requires IsTempDir(h, d)
    requires name != "" && name != "." && name != ".."
    requires IsWindows(h) ==> name[|name| - 1] != '.' && name[|name| - 1] != ' '
    ensures AbsJoin(h, d, name) == JoinPath(h, d, name) == d + [Sep(h)] + name
  {
    var p := d + [Sep(h)] + name;
    assert p[|p| - 1] == name[|name| - 1];
  }

  /** The empty name leaves the folder itself. */
  lemma AbsJoinEmpty(h: Host, d: string)
    requires IsTempDir(h, d)
    ensures AbsJoin(h, d, "") == d
  {
  }

  /** `..` leads to the parent folder. */
  lemma AbsJoinParent(h: Host, d: string)
    requires IsTempDir(h, d)
    ensures AbsJoin(h, d, "..") == Parent(h, d)
  {
    var q := Parent(h, d);
    if IsWindows(h) && |q| > RootLength(h) {
      assert IsSep(h, d[|q|]) && q[|q| - 1] == d[|q| - 1];
    }
  }

  /** Trimming undoes a run of dots and spaces appended to text that does
      not end in one. */
  lemma {:induction false} TrimTail(s: string, tail: string)
    requires s != [] && s[|s| - 1] != '.' && s[|s| - 1] != ' '
    requires forall k :: 0 <= k < |tail| ==> tail[k] == '.' || tail[k] == ' '
    ensures TrimDotsSpaces(s + tail) == s
    decreases |tail|
  {
    if tail != [] {
      var t := tail[..|tail| - 1];
      assert (s + tail)[..|s + tail| - 1] == s + t;
      TrimTail(s, t);
    }
  }

  /** On Windows the dots and spaces ending a name are dropped. */
  lemma AbsJoinTrimmed(h: Host, d: string, base: string, tail: string)
    requires IsWindows(h) && IsTempDir(h, d)
    requires base != "" && base != "." && base != ".."
    requires base[|base| - 1] != '.' && base[|base| - 1] != ' '
    requires tail != [] && forall k :: 0 <= k < |tail| ==> tail[k] == '.' || tail[k] == ' '
    ensures AbsJoin(h, d, base + tail) == JoinPath(h, d, base)
  {
    var name := base + tail;
    assert name != "" && name != "." && name != ".." by {
      assert name[..|base|] == base;
      assert |name| > |base|;
      if |name| <= 2 {
        assert |base| == 1 && base[0] != '.';
        assert name[0] == base[0];
      }
    }
    assert JoinPath(h, d, name) == (d + [Sep(h)] + base) + tail;
    TrimTail(d + [Sep(h)] + base, tail);
  }
}

=== FILE: conversion.dfy ===
/** The decisions `convert_from_path` takes before it runs `pdftohtml`: the
    page count from `pdfinfo`, the page range, the name of the PDF copy in
    the temporary folder, the argument list and the output extension. */
module Conversion {
  import opened Base
  import opened PyStr
  import opened PyInt
  import opened CommandPath
  import opened PageRange
  import opened PdfInfo
  import opened PdfToHtmlCommand

  /** `".".join(name.split('.')[:-1])`: the name without its last
      extension. */
  function Stem(name: string): (r: string)
    ensures '.' in name ==> r == SplitLast(name, '.').0
    ensures '.' !in name ==> r == ""
  {
    var parts := Split(name, '.');
    if '.' in name then
      var (stem, ext) := SplitLast(name, '.');
      SplitSnoc(stem, '.', ext);
      assert parts == Split(stem, '.') + [ext];
      assert parts[..|parts| - 1] == Split(stem, '.');
      Join(parts[..|parts| - 1], ".")
    else
      SplitAtFirst(name, '.');
      Join(parts[..|parts| - 1], ".")
  }

  /** The stem drops exactly the text from the last dot on. */
  lemma StemDropsLastExtension(stem: string, ext: string)
    requires '.' !in ext
    ensures Stem(stem + "." + ext) == stem
  {
    SplitSnoc(stem, '.', ext);
    var parts := Split(stem, '.') + [ext];
    assert parts[..|parts| - 1] == Split(stem, '.');
  }

  /** A name without a dot has the empty stem. */
  lemma StemOfUndottedName(name: string)
    requires '.' !in name
    ensures Stem(name) == ""
  {
    SplitAtFirst(name, '.');
  }

  /** The path of the PDF copy: the stem of the input's base name, joined to
      the temporary folder and made absolute, with `.pdf` appended. */
  function TempPdfPath(h: Host, tempDir: string, pdfPath: string): (r: string)
    requires IsTempDir(h, tempDir)
    ensures |r| >= 4 && r[|r| - 4..] == ".pdf"
  {
    AbsJoin(h, tempDir, Stem(LastComponent(h, pdfPath))) + ".pdf"
  }

  /** A stem that `abspath` leaves as it is: not empty, not `.` or `..`,
      and on Windows not ending in a dot or a space. */
  predicate OrdinaryStem(h: Host, stem: string)
  {
    && stem !in {"", ".", ".."}
    && (IsWindows(h) ==> stem[|stem| - 1] != '.' && stem[|stem| - 1] != ' ')
  }

  /** The stem taken from `srcDir/stem.ext`. */
  lemma StemOfPath(h: Host, srcDir: string, stem: string, ext: string)
    requires EndsComponent(h, srcDir)
    requires IsPlainName(h, stem + "." + ext) && '.' !in ext
    ensures Stem(LastComponent(h, srcDir + (stem + "." + ext))) == stem
  {
    LastComponentOfJoin(h, srcDir, stem + "." + ext);
    StemDropsLastExtension(stem, ext);
  }

  /** The copy of `srcDir/stem.ext` is `stem.pdf` in the temporary folder:
      the folder the PDF came from and its last extension are dropped. */
  lemma TempPdfPathKeepsStem(h: Host, tempDir: string, srcDir: string, stem: string, ext: string)
    requires IsTempDir(h, tempDir) && EndsComponent(h, srcDir)
    requires IsPlainName(h, stem + "." + ext) && '.' !in ext
    requires OrdinaryStem(h, stem)
    ensures TempPdfPath(h, tempDir, srcDir + (stem + "." + ext)) == JoinPath(h, tempDir, stem) + ".pdf"
  {
    StemOfPath(h, srcDir, stem, ext);
    AbsJoinOrdinary(h, tempDir, stem);
  }

  /** A base name without a dot has the empty stem, and `abspath` then drops
      the separator `join` added: the copy is the temporary folder's own
      path with `.pdf` appended, beside the folder rather than inside it.
      `mkstemp` names, which `convert_from_bytes` passes, have no dot. */
  lemma UndottedNameCopiedBesideTempDir(h: Host, tempDir: string, srcDir: string, name: string)
    requires IsTempDir(h, tempDir) && EndsComponent(h, srcDir)
    requires IsPlainName(h, name) && '.' !in name
    ensures TempPdfPath(h, tempDir, srcDir + name) == tempDir + ".pdf"
  {
    LastComponentOfJoin(h, srcDir, name);
    StemOfUndottedName(name);
    AbsJoinEmpty(h, tempDir);
  }

  /** A base name of three dots and a dot-free extension has the stem `..`:
      the copy lands beside the temporary folder's parent, outside the
      temporary folder. */
  lemma DoubleDotStemLeavesTempDir(h: Host, tempDir: string, srcDir: string, ext: string)
    requires IsTempDir(h, tempDir) && EndsComponent(h, srcDir)
    requires IsPlainName(h, "..." + ext) && '.' !in ext
    ensures TempPdfPath(h, tempDir, srcDir + ("..." + ext)) == Parent(h, tempDir) + ".pdf"
    ensures |Parent(h, tempDir)| < |tempDir|
  {
    assert ".." + "." + ext == "..." + ext;
    StemOfPath(h, srcDir, "..", ext);
    AbsJoinParent(h, tempDir);
  }

  /** On Windows the full-path rules drop the dots and spaces that end the
      stem, so `report..pdf` is copied as `report.pdf`. */
  lemma WindowsTrimsStem(h: Host, tempDir: string, srcDir: string, base: string, tail: string, ext: string)
    requires IsWindows(h) && IsTempDir(h, tempDir) && EndsComponent(h, srcDir)
    requires IsPlainName(h, base + tail + "." + ext) && '.' !in ext
    requires OrdinaryStem(h, base)
    requires tail != [] && forall k :: 0 <= k < |tail| ==> tail[k] == '.' || tail[k] == ' '
    ensures TempPdfPath(h, tempDir, srcDir + (base + tail + "." + ext)) == JoinPath(h, tempDir, base) + ".pdf"
  {
    StemOfPath(h, srcDir, base + tail, ext);
    AbsJoinTrimmed(h, tempDir, base, tail);
  }

  /** What `convert_from_path` goes on to do once `pdfinfo` has answered. */
  datatype Plan =
    | NothingToConvert                              // returns `[]`
    | Run(argv: seq<Token>, extension: string)      // starts `pdftohtml`

  /** Why a conversion stops with an exception before `pdftohtml` runs. */
  datatype ConversionError =
    | InfoFailed(info: InfoError)   // `pdfinfo_from_path` raised
    | NoneArgument                  // `Popen` raises `TypeError` on a `None` in the list

  /** `final_extension`: `xml` when the `xml` option is truthy. The code
      computes it and reads it nowhere further; it is kept in `Run` as the
      extension the output would have. */
  function FinalExtension(o: Options): (e: string)
    ensures e == "xml" <==> Truthy(o.xml)
    ensures e == "html" <==> !Truthy(o.xml)
  {
    if Truthy(o.xml) then "xml" else "html"
  }

  /** `convert_from_path` up to the `Popen` of `pdftohtml`. `infoOut` is what
      `pdfinfo` printed and `tempDir` the folder `mkdtemp` created. The page
      range replaces the requested `first_page` and `last_page` before the
      argument list is built, and `Popen` refuses a list holding `None`. */
  function PlanConversion(h: Host, popplerPath: Option<string>, pdfPath: string, infoOut: string,
                          tempDir: string, o: Options): (r: Result<Plan, ConversionError>)
    requires IsTempDir(h, tempDir)
    ensures ParseInfo(infoOut).Failure? <==> r.Failure? && r.error.InfoFailed?
    ensures r.Success? && r.value.Run? ==> r.value.extension == FinalExtension(o)
    ensures r.Success? && r.value.Run? ==>
              |r.value.argv| >= 2
              && r.value.argv[0] == Str(GetCommandPath(PdfToHtmlTool, h, popplerPath))
              && r.value.argv[1] == Str(TempPdfPath(h, tempDir, pdfPath))
              && NoneToken !in r.value.argv
  {
    match ParseInfo(infoOut)
    case Failure(e) => Failure(InfoFailed(e))
    case Success(d) =>
      match NormalizeRange(o.firstPage, o.lastPage, d["Pages"].n)
      case NoPages => Success(NothingToConvert)
      case Pages(first, last, _) =>
        var args := [Str(GetCommandPath(PdfToHtmlTool, h, popplerPath))];
        var o' := o.(firstPage := Some(first), lastPage := Some(last));
        var argv := BuildCommand(args, TempPdfPath(h, tempDir, pdfPath), o');
        if NoneToken in argv then Failure(NoneArgument)
        else Success(Run(argv, FinalExtension(o)))
  }

  /** The page count `pdfinfo` reported. */
  function PageCount(infoOut: string): int
    requires ParseInfo(infoOut).Success?
  {
    ParseInfo(infoOut).value["Pages"].n
  }

  /** With both pages given and one leading argument, the page options
      fill positions 2 to 7 of the argument list. */
  lemma PageArguments(args: seq<Token>, pdfPath: string, o: Options, first: int, last: int)
    requires |args| == 1 && o.firstPage == Some(first) && o.lastPage == Some(last)
    ensures |BuildCommand(args, pdfPath, o)| >= 8
    ensures BuildCommand(args, pdfPath, o)[2..8]
            == [Str("-f"), Str(IntToString(first)),
                Str("-l"), Str(IntToString(last)),
                Str("-l"), Str(IntToString(last))]
  {
    PageOptionsLead(args, pdfPath, o);
    var argv := BuildCommand(args, pdfPath, o);
    assert argv[2..4] == FirstPageTokens(o);
    assert argv[4..8] == LastPageTokens(o) + LastPageTokens(o);
  }

  /** With both pages given and one leading argument, the options after
      the page options start at position 8. */
  lemma LaterArguments(args: seq<Token>, pdfPath: string, o: Options)
    requires |args| == 1 && o.firstPage.Some? && o.lastPage.Some?
    ensures |BuildCommand(args, pdfPath, o)| >= 8
    ensures BuildCommand(args, pdfPath, o)[8..] == Encode(Flat(Steps(o), 3, StepCount))
  {
    BuildCommandStart(args, pdfPath, o);
    TailOfConcat(BuildCommand(args, pdfPath, o), args + [Str(pdfPath)], FirstPageTokens(o),
                 LastPageTokens(o), Encode(Flat(Steps(o), 3, StepCount)));
  }

  /** After a successful `pdfinfo`, nothing is converted exactly when the
      normalised range is empty, and the only exception left is `Popen`'s;
      the range `pdftohtml` is given starts at the requested first page (1
      when absent) and ends no later than the reported page count. */
  lemma ConversionRange(h: Host, popplerPath: Option<string>, pdfPath: string, infoOut: string,
                        tempDir: string, o: Options)
    requires IsTempDir(h, tempDir) && ParseInfo(infoOut).Success?
    ensures var r := PlanConversion(h, popplerPath, pdfPath, infoOut, tempDir, o);
            var s := NormalizeRange(o.firstPage, o.lastPage, PageCount(infoOut));
            && (r.Failure? ==> r.error.NoneArgument?)
            && (r.Success? && r.value.NothingToConvert? <==> s.NoPages?)
            && (s.Pages? ==> s.first == o.firstPage.GetOr(1) && s.first <= s.last <= PageCount(infoOut))
  {
  }

  /** When `pdftohtml` runs, its page options come right after the PDF copy:
      `-f` with the normalised first page, then `-l` with the normalised last
      page, twice. */
  lemma ConversionPages(h: Host, popplerPath: Option<string>, pdfPath: string, infoOut: string,
                        tempDir: string, o: Options)
    requires IsTempDir(h, tempDir) && ParseInfo(infoOut).Success?
    ensures var r := PlanConversion(h, popplerPath, pdfPath, infoOut, tempDir, o);
            var s := NormalizeRange(o.firstPage, o.lastPage, PageCount(infoOut));
            r.Success? && r.value.Run? ==>
              && s.Pages?
              && |r.value.argv| >= 8
              && r.value.argv[2..8]
                 == [Str("-f"), Str(IntToString(s.first)),
                     Str("-l"), Str(IntToString(s.last)),
                     Str("-l"), Str(IntToString(s.last))]
  {
    var s := NormalizeRange(o.firstPage, o.lastPage, PageCount(infoOut));
    RunArguments(h, popplerPath, pdfPath, infoOut, tempDir, o);
    if s.Pages? {
      var o' := o.(firstPage := Some(s.first), lastPage := Some(s.last));
      PageArguments([Str(GetCommandPath(PdfToHtmlTool, h, popplerPath))], TempPdfPath(h, tempDir, pdfPath), o', s.first, s.last);
    }
  }

  /** The list `pdftohtml` is started with is the one built from the
      normalised range. */
  lemma RunArguments(h: Host, popplerPath: Option<string>, pdfPath: string, infoOut: string,
                     tempDir: string, o: Options)
    requires IsTempDir(h, tempDir) && ParseInfo(infoOut).Success?
    ensures var r := PlanConversion(h, popplerPath, pdfPath, infoOut, tempDir, o);
            var s := NormalizeRange(o.firstPage, o.lastPage, PageCount(infoOut));
            r.Success? && r.value.Run? ==>
              && s.Pages?
              && r.value.argv
                 == BuildCommand([Str(GetCommandPath(PdfToHtmlTool, h, popplerPath))], TempPdfPath(h, tempDir, pdfPath),
                                 o.(firstPage := Some(s.first), lastPage := Some(s.last)))
  {
    var r := PlanConversion(h, popplerPath, pdfPath, infoOut, tempDir, o);
    var s := NormalizeRange(o.firstPage, o.lastPage, ParseInfo(infoOut).value["Pages"].n);
    if s.Pages? {
      var args := [Str(GetCommandPath(PdfToHtmlTool, h, popplerPath))];
      var o' := o.(firstPage := Some(s.first), lastPage := Some(s.last));
      var argv := BuildCommand(args, TempPdfPath(h, tempDir, pdfPath), o');
      assert r == if NoneToken in argv then Failure(NoneArgument) else Success(Run(argv, FinalExtension(o)));
    } else {
      assert r == Success(NothingToConvert);
    }
  }

  /** When `pdftohtml` runs, everything after the page options is what the
      caller's own options ask for, in the order `_build_command` writes
      them: replacing the page range changes nothing else. */
  lemma ConversionOptions(h: Host, popplerPath: Option<string>, pdfPath: string, infoOut: string,
                          tempDir: string, o: Options)
    requires IsTempDir(h, tempDir)
    ensures var r := PlanConversion(h, popplerPath, pdfPath, infoOut, tempDir, o);
            r.Success? && r.value.Run? ==>
              && |r.value.argv| >= 8
              && r.value.argv[8..] == Encode(Flat(Steps(o), 3, StepCount))
  {
    if ParseInfo(infoOut).Success? {
      var s := NormalizeRange(o.firstPage, o.lastPage, PageCount(infoOut));
      RunArguments(h, popplerPath, pdfPath, infoOut, tempDir, o);
      if s.Pages? {
        var o' := o.(firstPage := Some(s.first), lastPage := Some(s.last));
        LaterArguments([Str(GetCommandPath(PdfToHtmlTool, h, popplerPath))], TempPdfPath(h, tempDir, pdfPath), o');
        LaterStepsIgnorePages(o, Some(s.first), Some(s.last));
      }
    }
  }

  /** After a successful `pdfinfo` and with pages to convert, `Popen`
      refuses the list exactly when `userpw` is given without `ownerpw`. */
  lemma NoneArgumentRefused(h: Host, popplerPath: Option<string>, pdfPath: string, infoOut: string,
                            tempDir: string, o: Options)
    requires IsTempDir(h, tempDir) && ParseInfo(infoOut).Success?
    requires NormalizeRange(o.firstPage, o.lastPage, PageCount(infoOut)).Pages?
    ensures PlanConversion(h, popplerPath, pdfPath, infoOut, tempDir, o).Failure?
            <==> o.userpw.Some? && o.ownerpw.None?
  {
    var s := NormalizeRange(o.firstPage, o.lastPage, PageCount(infoOut));
    var args := [Str(GetCommandPath(PdfToHtmlTool, h, popplerPath))];
    var o' := o.(firstPage := Some(s.first), lastPage := Some(s.last));
    NoneOnlyFromUserPassword(args, TempPdfPath(h, tempDir, pdfPath), o');
  }
}

=== FILE: page_range.dfy ===
/** The page-range normalisation at the start of `convert_from_path`: the
    requested first and last pages are defaulted and clamped against the page
    count that `pdfinfo` reported. */
module PageRange {
  import opened Base

  /** The outcome of the normalisation: nothing to convert (the function
      returns an empty list), or an inclusive page range together with the
      recomputed page count. */
  datatype Selection = NoPages | Pages(first: int, last: int, count: int)

  /** `first_page` and `last_page` after defaulting: a missing first page
      becomes 1, a missing last page or one past the end becomes the page
      count. */
  function NormalizeRange(firstPage: Option<int>, lastPage: Option<int>, pageCount: int): (r: Selection)
    ensures r.Pages? ==> r.count == r.last - r.first + 1 && r.count >= 1
    ensures r.Pages? ==> r.first == firstPage.GetOr(1)
    ensures r.Pages? ==> r.last <= pageCount
    ensures r.Pages? && lastPage.Some? ==> r.last <= lastPage.value
    ensures r.Pages? && (lastPage.None? || lastPage.value >= pageCount) ==> r.last == pageCount
    ensures r.Pages? && lastPage.Some? && lastPage.value <= pageCount ==> r.last == lastPage.value
  {
    var first := if firstPage.None? then 1 else firstPage.value;
    var last := if lastPage.None? || lastPage.value > pageCount then pageCount else lastPage.value;
    if first > last then NoPages
    else Pages(first, last, last - first + 1)
  }

  /** The pages a caller asks for: from the first page (1 when absent) up to
      the last page (unbounded when absent). No lower clamp to 1 is applied
      to an explicit first page, and none is applied here either. */
  predicate PageRequested(firstPage: Option<int>, lastPage: Option<int>, p: int)
  {
    firstPage.GetOr(1) <= p && (lastPage.None? || p <= lastPage.value)
  }

  /** The integers from `lo` to `hi` inclusive. */
  function Interval(lo: int, hi: int): set<int>
    decreases hi - lo
  {
    if lo > hi then {} else Interval(lo, hi - 1) + {hi}
  }

  lemma {:induction false} InInterval(lo: int, hi: int, p: int)
    ensures p in Interval(lo, hi) <==> lo <= p <= hi
    decreases hi - lo
  {
    if lo <= hi {
      InInterval(lo, hi - 1, p);
    }
  }

  /** The pages a selection covers. */
  function Covered(s: Selection): set<int>
  {
    match s
    case NoPages => {}
    case Pages(first, last, _) => Interval(first, last)
  }

  /** The selection covers exactly the requested pages that the document has
      (at most the page count); it is empty exactly when no such page exists. */
  lemma SelectionIsRequestedPagesInDocument(firstPage: Option<int>, lastPage: Option<int>, pageCount: int, p: int)
    ensures p in Covered(NormalizeRange(firstPage, lastPage, pageCount))
            <==> PageRequested(firstPage, lastPage, p) && p <= pageCount
  {
    var r := NormalizeRange(firstPage, lastPage, pageCount);
    if r.Pages? {
      InInterval(r.first, r.last, p);
    }
  }

  /** `NoPages` is returned exactly when no requested page lies within the
      document. */
  lemma NoPagesIffNothingRequested(firstPage: Option<int>, lastPage: Option<int>, pageCount: int)
    ensures NormalizeRange(firstPage, lastPage, pageCount).NoPages?
            <==> forall p :: PageRequested(firstPage, lastPage, p) ==> p > pageCount
  {
    var r := NormalizeRange(firstPage, lastPage, pageCount);
    if r.Pages? {
      assert PageRequested(firstPage, lastPage, r.first) && r.first <= pageCount;
    }
  }

  lemma {:induction false} IntervalSize(lo: int, hi: int)
    requires lo <= hi + 1
    ensures |Interval(lo, hi)| == hi - lo + 1
    decreases hi - lo
  {
    if lo <= hi {
      IntervalSize(lo, hi - 1);
      InInterval(lo, hi - 1, hi);
    }
  }

  /** The recomputed page count is the number of pages the range covers. */
  lemma CountIsNumberOfPages(firstPage: Option<int>, lastPage: Option<int>, pageCount: int)
    ensures var r := NormalizeRange(firstPage, lastPage, pageCount);
            r.Pages? ==> |Covered(r)| == r.count
  {
    var r := NormalizeRange(firstPage, lastPage, pageCount);
    if r.Pages? {
      IntervalSize(r.first, r.last);
    }
  }

  /** Normalising an already normalised range changes nothing. */
  lemma NormalizeIdempotent(firstPage: Option<int>, lastPage: Option<int>, pageCount: int)
    ensures var r := NormalizeRange(firstPage, lastPage, pageCount);
            r.Pages? ==> NormalizeRange(Some(r.first), Some(r.last), pageCount) == r
  {
  }
}

=== FILE: pdfinfo.dfy ===
/** `pdfinfo_from_path`: the `pdfinfo` command line and the reading of its
    output into a dictionary that must hold the page count. */
module PdfInfo {
  import opened Base
  import opened PyStr
  import opened PyInt
  import opened CommandPath

  /** A dictionary value: an integer for the keys listed in
      `PDFINFO_CONVERT_TO_INT`, the stripped text otherwise. */
  datatype InfoValue = IntValue(n: int) | Text(s: string)

  /** `PDFPageCountError`: a page count that is not an integer, or none at
      all. */
  datatype InfoError = PageCountError

  /** `PDFINFO_CONVERT_TO_INT`. */
  const ConvertToInt: seq<string> := ["Pages"]

  /** The `pdfinfo` command: the executable, the PDF, and `-upw` with the
      user password when one is given. */
  function PdfInfoCommand(h: Host, popplerPath: Option<string>, pdfPath: string, userpw: Option<string>): (r: seq<string>)
    ensures |r| >= 2 && r[0] == GetCommandPath(PdfInfoTool, h, popplerPath) && r[1] == pdfPath
    ensures userpw.None? ==> |r| == 2
    ensures userpw.Some? ==> r[2..] == ["-upw", userpw.value]
  {
    [GetCommandPath(PdfInfoTool, h, popplerPath), pdfPath]
    + (if userpw.Some? then ["-upw", userpw.value] else [])
  }

  /** `sf[0]` for `sf = field.split(":")`. */
  function LineKey(line: string): string
  {
    Split(line, ':')[0]
  }

  /** `":".join(sf[1:])`, before stripping. */
  function LineValue(line: string): string
  {
    Join(Split(line, ':')[1..], ":")
  }

  /** The key is the text before the first colon and the value everything
      after it; a line without a colon is all key and has an empty value. */
  lemma KeyAndValueOfLine(line: string)
    ensures ':' in line ==> LineKey(line) + ":" + LineValue(line) == line
    ensures ':' in line ==> ':' !in LineKey(line)
    ensures ':' !in line ==> LineKey(line) == line && LineValue(line) == ""
  {
    SplitAtFirst(line, ':');
    if ':' in line {
      var i := FirstIndex(line, ':');
      assert line == line[..i] + [':'] + line[i + 1..];
    }
  }

  /** The dictionary value for `key`: `int(value.strip())` for the listed
      keys, where a failed conversion is `None`, and `value.strip()` for the
      others. */
  function Convert(key: string, value: string): (r: Option<InfoValue>)
    ensures key !in ConvertToInt ==> r == Some(Text(Strip(value)))
    ensures key in ConvertToInt && r.Some? ==> r.value.IntValue?
  {
    if key in ConvertToInt then
      match ParseInt(Strip(value))
      case Some(n) => Some(IntValue(n))
      case None => None
    else Some(Text(Strip(value)))
  }

  /** A page count printed by `pdfinfo`, after any run of whitespace, reads
      back as that number. */
  lemma PageCountValueRead(pad: string, n: int)
    requires forall k :: 0 <= k < |pad| ==> IsSpace(pad[k])
    ensures Convert("Pages", pad + IntToString(n)) == Some(IntValue(n))
  {
    var s := IntToString(n);
    assert !IsSpace(s[0]) && !IsSpace(s[|s| - 1]) by {
      if n < 0 {
        assert s[1..] == NatToString(-n);
        assert s[|s| - 1] == NatToString(-n)[|s| - 2];
      }
    }
    StripOfPadded(pad, s);
    ParseIntToString(n);
  }

  /** One pass of the loop body: lines with an empty key are skipped, the
      others set (or overwrite) their key. */
  function AddLine(d: map<string, InfoValue>, line: string): Result<map<string, InfoValue>, InfoError>
  {
    var key := LineKey(line);
    if key == "" then Success(d)
    else
      match Convert(key, LineValue(line))
      case Some(v) => Success(d[key := v])
      case None => Failure(PageCountError)
  }

  /** The loop over the output lines, in order. */
  function Entries(lines: seq<string>): Result<map<string, InfoValue>, InfoError>
  {
    if lines == [] then Success(map[])
    else
      match Entries(lines[..|lines| - 1])
      case Failure(e) => Failure(e)
      case Success(d) => AddLine(d, lines[|lines| - 1])
  }

  /** The loop and the `Pages` check, on the output already split into
      lines. */
  function ParseLines(lines: seq<string>): (r: Result<map<string, InfoValue>, InfoError>)
    ensures r.Success? ==> "Pages" in r.value && r.value["Pages"].IntValue?
  {
    match Entries(lines)
    case Failure(e) => Failure(e)
    case Success(d) =>
      if "Pages" in d then
        assert "Pages" in ConvertToInt;
        EntriesConvert(lines, "Pages");
        Success(d)
      else Failure(PageCountError)
  }

  /** The body of `pdfinfo_from_path` after the process has run, on its
      decoded standard output split at newlines. */
  function ParseInfo(out: string): (r: Result<map<string, InfoValue>, InfoError>)
    ensures r.Success? ==> "Pages" in r.value && r.value["Pages"].IntValue?
  {
    ParseLines(Split(out, '\n'))
  }

  /** A line built from a colon-free key and a colon-free value splits
      back into them. */
  lemma LineOfKeyAndValue(key: string, value: string)
    requires ':' !in key && ':' !in value
    ensures LineKey(key + ":" + value) == key
    ensures LineValue(key + ":" + value) == value
  {
    var line := key + ":" + value;
    SplitUnique(line, ':', [key, value]);
    assert Split(line, ':')[1..] == [value];
  }

  /** `str(n)` holds only digits and a leading minus sign. */
  lemma IntToStringChars(n: int)
    ensures forall k :: 0 <= k < |IntToString(n)| ==> IsDigit(IntToString(n)[k]) || IntToString(n)[k] == '-'
  {
    if n < 0 {
      assert forall k :: 1 <= k < |IntToString(n)| ==> IntToString(n)[k] == NatToString(-n)[k - 1];
    }
  }

  /** Output whose only line is `Pages:` followed by whitespace and a number
      gives the dictionary that maps `Pages` to that number. */
  lemma PagesLineParsed(pad: string, n: int)
    requires forall k :: 0 <= k < |pad| ==> IsSpace(pad[k])
    ensures ParseLines(["Pages:" + pad + IntToString(n)]) == Success(map["Pages" := IntValue(n)])
  {
    var value := pad + IntToString(n);
    IntToStringChars(n);
    assert ':' !in value by {
      forall k | 0 <= k < |value| ensures value[k] != ':' {
        if k >= |pad| {
          assert value[k] == IntToString(n)[k - |pad|];
        }
      }
    }
    var line := "Pages:" + pad + IntToString(n);
    assert line == "Pages" + ":" + value;
    LineOfKeyAndValue("Pages", value);
    PageCountValueRead(pad, n);
    assert AddLine(map[], line) == Success(map["Pages" := IntValue(n)]);
    assert [line][..0] == [];
    assert Entries([line]) == AddLine(map[], line);
  }

  /** The unstripped value of the last line whose key is `key`, if any. */
  function LastValue(lines: seq<string>, key: string): Option<string>
  {
    if lines == [] then None
    else if LineKey(lines[|lines| - 1]) == key then Some(LineValue(lines[|lines| - 1]))
    else LastValue(lines[..|lines| - 1], key)
  }

  /** Every line with a non-empty key has a value its key can be converted
      with: in effect, every `Pages` line carries an integer. */
  predicate AllConvertible(lines: seq<string>)
  {
    forall i :: 0 <= i < |lines| && LineKey(lines[i]) != "" ==>
      Convert(LineKey(lines[i]), LineValue(lines[i])).Some?
  }

  lemma {:induction false} EntriesConvert(lines: seq<string>, key: string)
    requires Entries(lines).Success? && key in Entries(lines).value
    ensures LastValue(lines, key).Some?
    ensures Convert(key, LastValue(lines, key).value) == Some(Entries(lines).value[key])
  {
    EntriesMatchLastValue(lines, key);
  }

  /** The loop succeeds exactly when every line converts. */
  lemma {:induction false} EntriesSucceed(lines: seq<string>)
    ensures Entries(lines).Success? <==> AllConvertible(lines)
  {
    if lines != [] {
      var init := lines[..|lines| - 1];
      var line := lines[|lines| - 1];
      EntriesSucceed(init);
      assert forall i :: 0 <= i < |init| ==> init[i] == lines[i];
      if !AllConvertible(init) {
        var i :| 0 <= i < |init| && LineKey(init[i]) != "" && Convert(LineKey(init[i]), LineValue(init[i])).None?;
        assert LineKey(lines[i]) != "" && Convert(LineKey(lines[i]), LineValue(lines[i])).None?;
      } else {
        assert AllConvertible(lines) <==>
               (LineKey(line) != "" ==> Convert(LineKey(line), LineValue(line)).Some?);
      }
    }
  }

  /** When the loop succeeds it holds every non-empty key that occurs and no
      other, each with the converted value of the last line with that key. */
  lemma {:induction false} EntriesMatchLastValue(lines: seq<string>, key: string)
    requires Entries(lines).Success?
    ensures key in Entries(lines).value <==> key != "" && LastValue(lines, key).Some?
    ensures key in Entries(lines).value ==>
              Convert(key, LastValue(lines, key).value) == Some(Entries(lines).value[key])
  {
    if lines != [] {
      var init := lines[..|lines| - 1];
      EntriesMatchLastValue(init, key);
    }
  }

  /** `pdfinfo_from_path` returns a dictionary exactly when every line with a
      `Pages` key carries an integer and at least one such line exists; the
      dictionary then holds, for every non-empty key that occurs, the
      converted value of the last line with that key, and no other key. */
  lemma ParseLinesSpec(lines: seq<string>)
    ensures ParseLines(lines).Success? <==> AllConvertible(lines) && LastValue(lines, "Pages").Some?
    ensures ParseLines(lines).Success? ==>
              forall key :: key in ParseLines(lines).value <==> key != "" && LastValue(lines, key).Some?
    ensures ParseLines(lines).Success? ==>
              forall key :: key in ParseLines(lines).value ==>
                Convert(key, LastValue(lines, key).value) == Some(ParseLines(lines).value[key])
  {
    EntriesSucceed(lines);
    if Entries(lines).Success? {
      EntriesMatchLastValue(lines, "Pages");
      forall key {
        EntriesMatchLastValue(lines, key);
      }
    }
  }
}

=== FILE: pyint.dfy ===
/** Python's conversions between integers and decimal text: `str(n)` and
    `int(s)`. */
module PyInt {
  import opened Base

  predicate IsDigit(ch: char) { '0' <= ch <= '9' }

  function DigitChar(d: nat): (ch: char)
    requires d < 10
    ensures IsDigit(ch)
  {
    ('0' as int + d) as char
  }

  function DigitValue(ch: char): (d: nat)
    requires IsDigit(ch)
    ensures d < 10
  {
    ch as int - '0' as int
  }

  /** `str(n)` for `n >= 0`: decimal digits, most significant first, with no
      leading zero unless `n` is zero. */
  function NatToString(n: nat): (s: string)
    ensures |s| >= 1
    ensures forall k :: 0 <= k < |s| ==> IsDigit(s[k])
    ensures s[0] == '0' <==> n == 0
    ensures n == 0 ==> s == "0"
    decreases n
  {
    if n < 10 then [DigitChar(n)] else NatToString(n / 10) + [DigitChar(n % 10)]
  }

  /** `str(n)`: a minus sign in front of negative numbers. */
  function IntToString(n: int): (s: string)
    ensures |s| >= 1
    ensures s[0] == '-' <==> n < 0
  {
    if n < 0 then "-" + NatToString(-n) else NatToString(n)
  }

  /** The digit strings `int()` accepts: ASCII digits, optionally grouped by
      single underscores that stand between two digits. */
  predicate IsDigitString(s: string)
  {
    && |s| > 0
    && IsDigit(s[0]) && IsDigit(s[|s| - 1])
    && (forall k :: 0 <= k < |s| ==> IsDigit(s[k]) || s[k] == '_')
    && (forall k :: 0 <= k < |s| - 1 && s[k] == '_' ==> IsDigit(s[k + 1]))
  }

  /** The number a string of digits and underscores denotes. */
  function DigitsValue(s: string): nat
    requires forall k :: 0 <= k < |s| ==> IsDigit(s[k]) || s[k] == '_'
  {
    if |s| == 0 then 0
    else if s[|s| - 1] == '_' then DigitsValue(s[..|s| - 1])
    else 10 * DigitsValue(s[..|s| - 1]) + DigitValue(s[|s| - 1])
  }

  /** `int(s)` on text without surrounding whitespace: an optional sign
      followed by a digit string; anything else raises `ValueError`, here
      `None`. */
  function ParseInt(s: string): (r: Option<int>)
    ensures r.Some? ==> |s| > 0 && (IsDigit(s[0]) || s[0] == '-' || s[0] == '+')
    ensures r.Some? && r.value < 0 ==> s[0] == '-'
  {
    if |s| > 0 && (s[0] == '-' || s[0] == '+') then
      if IsDigitString(s[1..]) then
        var v: int := DigitsValue(s[1..]);
        Some(if s[0] == '-' then -v else v)
      else None
    else if IsDigitString(s) then Some(DigitsValue(s))
    else None
  }

  lemma {:induction false} NatToStringValue(n: nat)
    ensures DigitsValue(NatToString(n)) == n
    decreases n
  {
    if n >= 10 {
      var s := NatToString(n);
      NatToStringValue(n / 10);
      assert s[..|s| - 1] == NatToString(n / 10);
    }
  }

  /** `int(str(n)) == n` for every integer. */
  lemma ParseIntToString(n: int)
    ensures ParseInt(IntToString(n)) == Some(n)
  {
    var m := if n < 0 then -n else n;
    NatToStringValue(m);
    if n < 0 {
      assert IntToString(n)[1..] == NatToString(m);
    }
  }
}

=== FILE: pystr.dfy ===
/** The parts of Python's `str` that the model needs: `split` and `join` on a
    one-character separator, `rsplit(sep, 1)`, `strip()` and `lower()`. */
module PyStr {

  /** `sep.join(parts)`. */
  function Join(parts: seq<string>, sep: string): string
  {
    if |parts| == 0 then ""
    else if |parts| == 1 then parts[0]
    else parts[0] + sep + Join(parts[1..], sep)
  }

  /** Position of the first `c` in `s`. */
  function FirstIndex(s: string, c: char): (i: nat)
    requires c in s
    ensures i < |s| && s[i] == c
    ensures c !in s[..i]
  {
    if s[0] == c then 0
    else
      var i := 1 + FirstIndex(s[1..], c);
      assert s[..i] == [s[0]] + s[1..][..i - 1];
      i
  }

  /** Position of the last `c` in `s`. */
  function LastIndex(s: string, c: char): (i: nat)
    requires c in s
    ensures i < |s| && s[i] == c
    ensures c !in s[i + 1..]
  {
    if s[|s| - 1] == c then |s| - 1
    else
      assert s == s[..|s| - 1] + [s[|s| - 1]];
      var i := LastIndex(s[..|s| - 1], c);
      assert s[i + 1..] == s[..|s| - 1][i + 1..] + [s[|s| - 1]];
      i
  }

  /** `s.split(c)`: the `c`-free pieces between the separators, from left to
      right; there is always at least one piece, and joining them back with
      `c` gives `s` again. */
  function Split(s: string, c: char): (parts: seq<string>)
    ensures |parts| >= 1
    ensures forall k :: 0 <= k < |parts| ==> c !in parts[k]
    ensures Join(parts, [c]) == s
    decreases |s|
  {
    if c !in s then [s]
    else
      var i := FirstIndex(s, c);
      var rest := Split(s[i + 1..], c);
      assert s == s[..i] + [c] + s[i + 1..];
      assert ([s[..i]] + rest)[1..] == rest;
      [s[..i]] + rest
  }

  /** The first piece of `s.split(c)` is the text before the first `c`, and
      the remaining pieces joined with `c` are the text after it. */
  lemma SplitAtFirst(s: string, c: char)
    ensures c in s ==> Split(s, c)[0] == s[..FirstIndex(s, c)]
    ensures c in s ==> Join(Split(s, c)[1..], [c]) == s[FirstIndex(s, c) + 1..]
    ensures c !in s ==> Split(s, c) == [s]
  {
    if c in s {
      var i := FirstIndex(s, c);
      assert Split(s, c)[1..] == Split(s[i + 1..], c);
    }
  }

  /** Joining one more piece adds the separator and the piece at the end. */
  lemma {:induction false} JoinSnoc(parts: seq<string>, p: string, sep: string)
    requires |parts| >= 1
    ensures Join(parts + [p], sep) == Join(parts, sep) + sep + p
    decreases |parts|
  {
    if |parts| > 1 {
      assert (parts + [p])[1..] == parts[1..] + [p];
      JoinSnoc(parts[1..], p, sep);
    }
  }

  /** Pieces free of `c` joined with `c` start with the first piece, followed
      by `c` when there is more than one piece. */
  lemma JoinHead(parts: seq<string>, c: char)
    requires |parts| > 1
    ensures Join(parts, [c]) == parts[0] + [c] + Join(parts[1..], [c])
  {
  }

  /** `split` is the only way to cut a string into `c`-free pieces that join
      back to it: the contract of `Split` determines its result. */
  lemma {:induction false} SplitUnique(s: string, c: char, parts: seq<string>)
    requires |parts| >= 1
    requires forall k :: 0 <= k < |parts| ==> c !in parts[k]
    requires Join(parts, [c]) == s
    ensures Split(s, c) == parts
    decreases |s|
  {
    if |parts| == 1 {
      SplitAtFirst(s, c);
    } else {
      JoinHead(parts, c);
      var h := parts[0];
      assert s[|h|] == c && s[..|h|] == h;
      assert c in s;
      var i := FirstIndex(s, c);
      assert i == |h|;
      SplitAtFirst(s, c);
      var tail := s[i + 1..];
      assert tail == Join(parts[1..], [c]);
      SplitUnique(tail, c, parts[1..]);
      assert Split(s, c) == [h] + Split(tail, c);
    }
  }

  /** A `c`-free piece appended after a `c` becomes one more piece of the
      split. */
  lemma SplitSnoc(s: string, c: char, p: string)
    requires c !in p
    ensures Split(s + [c] + p, c) == Split(s, c) + [p]
  {
    var parts := Split(s, c) + [p];
    JoinSnoc(Split(s, c), p, [c]);
    SplitUnique(s + [c] + p, c, parts);
  }

  /** Python's `str.isspace()` for one character: the characters `strip()`
      removes when called without arguments. */
  predicate IsSpace(ch: char)
  {
    ('\t' <= ch <= '\r') || ('\U{1c}' <= ch <= ' ')
    || ch == '\U{85}' || ch == '\U{a0}' || ch == '\U{1680}'
    || ('\U{2000}' <= ch <= '\U{200a}') || ch == '\U{2028}' || ch == '\U{2029}'
    || ch == '\U{202f}' || ch == '\U{205f}' || ch == '\U{3000}'
  }

  /** Number of whitespace characters at the start of `s`. */
  function LeadingSpace(s: string): (n: nat)
    ensures n <= |s|
    ensures forall k :: 0 <= k < n ==> IsSpace(s[k])
    ensures n == |s| || !IsSpace(s[n])
  {
    if |s| > 0 && IsSpace(s[0]) then 1 + LeadingSpace(s[1..]) else 0
  }

  /** `s.rstrip()`: drops the trailing whitespace and nothing else. */
  function StripEnd(s: string): (r: string)
    ensures |r| <= |s| && r == s[..|r|]
    ensures r == [] || !IsSpace(r[|r| - 1])
    ensures forall k :: |r| <= k < |s| ==> IsSpace(s[k])
  {
    if |s| > 0 && IsSpace(s[|s| - 1]) then StripEnd(s[..|s| - 1]) else s
  }

  /** `s.strip()`: what is left of `s` once the whitespace at both ends is
      removed; the result neither starts nor ends with whitespace. */
  function Strip(s: string): (r: string)
    ensures r == [] || (!IsSpace(r[0]) && !IsSpace(r[|r| - 1]))
    ensures LeadingSpace(s) + |r| <= |s|
    ensures r == s[LeadingSpace(s)..LeadingSpace(s) + |r|]
    ensures forall k :: LeadingSpace(s) + |r| <= k < |s| ==> IsSpace(s[k])
  {
    StripEnd(s[LeadingSpace(s)..])
  }

  /** Whitespace in front of text that starts with something else is
      counted in full. */
  lemma {:induction false} LeadingSpaceOfPadded(pad: string, s: string)
    requires forall k :: 0 <= k < |pad| ==> IsSpace(pad[k])
    requires s == [] || !IsSpace(s[0])
    ensures LeadingSpace(pad + s) == |pad|
    decreases |pad|
  {
    if |pad| > 0 {
      assert (pad + s)[1..] == pad[1..] + s;
      LeadingSpaceOfPadded(pad[1..], s);
    }
  }

  /** `strip()` gives back text that neither starts nor ends with
      whitespace, whatever whitespace was put in front of it. */
  lemma StripOfPadded(pad: string, s: string)
    requires forall k :: 0 <= k < |pad| ==> IsSpace(pad[k])
    requires s == [] || (!IsSpace(s[0]) && !IsSpace(s[|s| - 1]))
    ensures Strip(pad + s) == s
  {
    LeadingSpaceOfPadded(pad, s);
    assert (pad + s)[|pad|..] == s;
  }

  /** `ch.lower()` for ASCII letters; every other character is unchanged. */
  function LowerChar(ch: char): char
  {
    if 'A' <= ch <= 'Z' then (ch as int + 32) as char else ch
  }

  /** `s.lower()`, character by character. */
  function Lower(s: string): (r: string)
    ensures |r| == |s|
    ensures forall k :: 0 <= k < |s| ==> r[k] == LowerChar(s[k])
  {
    seq(|s|, k requires 0 <= k < |s| => LowerChar(s[k]))
  }

  /** `s.rsplit(c, 1)` when `c` occurs in `s`: the text before the last `c`
      and the text after it. */
  function SplitLast(s: string, c: char): (r: (string, string))
    requires c in s
    ensures s == r.0 + [c] + r.1
    ensures c !in r.1
  {
    var i := LastIndex(s, c);
    assert s == s[..i] + [c] + s[i + 1..];
    (s[..i], s[i + 1..])
  }
}

=== FILE: upload.dfy ===
/** The upload handler: which file names are accepted, and what the request
    handler answers for each kind of request. */
module Upload {
  import opened Base
  import opened PyStr

  /** `filename.rsplit('.', 1)[1].lower()`: the lower-cased text after the
      last dot, when there is a dot. */
  function Extension(filename: string): (r: Option<string>)
    ensures r.None? <==> '.' !in filename
    ensures r.Some? ==> '.' !in r.value
  {
    if '.' in filename then
      var ext := SplitLast(filename, '.').1;
      LowerKeepsDots(ext);
      Some(Lower(ext))
    else None
  }

  /** `allowed_file`: the name has a dot and its lower-cased last extension
      is one of the allowed entries, compared as written. */
  function AllowedFile(filename: string, allowedExt: seq<string>): (r: bool)
    ensures '.' !in filename ==> !r
  {
    match Extension(filename)
    case None => false
    case Some(ext) => ext in allowedExt
  }

  /** The position of a dot followed by no other dot is the one `rsplit`
      splits at. */
  lemma SplitLastAt(filename: string, i: nat)
    requires i < |filename| && filename[i] == '.' && '.' !in filename[i + 1..]
    ensures SplitLast(filename, '.') == (filename[..i], filename[i + 1..])
  {
    var (a, b) := SplitLast(filename, '.');
    assert filename[..i] == a;
  }

  /** A name is allowed exactly when it has a last dot after which comes an
      extension whose lower-cased form is listed. */
  lemma AllowedFileIffLastExtension(filename: string, allowedExt: seq<string>)
    ensures AllowedFile(filename, allowedExt) <==>
              exists i :: 0 <= i < |filename| && filename[i] == '.' && '.' !in filename[i + 1..]
                          && Lower(filename[i + 1..]) in allowedExt
  {
    if AllowedFile(filename, allowedExt) {
      var i := LastIndex(filename, '.');
      SplitLastAt(filename, i);
    }
    if exists i :: 0 <= i < |filename| && filename[i] == '.' && '.' !in filename[i + 1..]
                   && Lower(filename[i + 1..]) in allowedExt {
      var i :| 0 <= i < |filename| && filename[i] == '.' && '.' !in filename[i + 1..]
               && Lower(filename[i + 1..]) in allowedExt;
      SplitLastAt(filename, i);
    }
  }

  /** Only the text after the last dot counts: `stem.ext` is allowed exactly
      when `ext` is, whatever the stem (so `a.tar.zip` is judged by `zip`). */
  lemma OnlyLastExtensionCounts(stem: string, ext: string, allowedExt: seq<string>)
    requires '.' !in ext
    ensures AllowedFile(stem + "." + ext, allowedExt) <==> Lower(ext) in allowedExt
  {
    var f := stem + "." + ext;
    assert f[|stem|] == '.' && f[|stem| + 1..] == ext;
    SplitLastAt(f, |stem|);
  }

  /** A name ending in a dot has the empty extension, so it is allowed
      exactly when `""` is listed. */
  lemma TrailingDotIsEmptyExtension(stem: string, allowedExt: seq<string>)
    ensures AllowedFile(stem + ".", allowedExt) <==> "" in allowedExt
  {
    OnlyLastExtensionCounts(stem, "", allowedExt);
    assert stem + "." + "" == stem + ".";
  }

  lemma LowerLower(s: string)
    ensures Lower(Lower(s)) == Lower(s)
  {
  }

  /** Lower-casing neither adds nor removes dots. */
  lemma LowerKeepsDots(s: string)
    ensures '.' in Lower(s) <==> '.' in s
  {
    if '.' in s {
      var k :| 0 <= k < |s| && s[k] == '.';
      assert Lower(s)[k] == '.';
    }
    if '.' in Lower(s) {
      var k :| 0 <= k < |s| && Lower(s)[k] == '.';
      assert s[k] == '.';
    }
  }

  /** The case of the file name does not matter: a name is allowed exactly
      when its lower-cased form is. */
  lemma FilenameCaseIgnored(filename: string, allowedExt: seq<string>)
    ensures AllowedFile(Lower(filename), allowedExt) == AllowedFile(filename, allowedExt)
  {
    var g := Lower(filename);
    LowerKeepsDots(filename);
    if '.' in filename {
      var i := LastIndex(filename, '.');
      var tail := filename[i + 1..];
      assert g[i + 1..] == Lower(tail);
      LowerKeepsDots(tail);
      SplitLastAt(g, i);
      LowerLower(tail);
    }
  }

  /** The allowed list is not lower-cased: an accepted name matched the
      listed entry that equals its extension, and that entry has no
      upper-case letter. */
  lemma MatchedEntryIsLowerCase(filename: string, allowedExt: seq<string>)
    requires AllowedFile(filename, allowedExt)
    ensures Extension(filename).Some? && Extension(filename).value in allowedExt
    ensures Lower(Extension(filename).value) == Extension(filename).value
    ensures exists k :: 0 <= k < |allowedExt| && Lower(allowedExt[k]) == allowedExt[k]
  {
    LowerLower(SplitLast(filename, '.').1);
    var e := Extension(filename).value;
    var k :| 0 <= k < |allowedExt| && allowedExt[k] == e;
  }

  /** An entry with an upper-case letter never matches: adding it to the
      list accepts no further name. */
  lemma UpperCaseEntryNeverMatches(filename: string, allowedExt: seq<string>, e: string)
    requires Lower(e) != e
    ensures AllowedFile(filename, allowedExt + [e]) == AllowedFile(filename, allowedExt)
  {
    if '.' in filename {
      LowerLower(SplitLast(filename, '.').1);
    }
  }

  /** What `upload_to` does with one request. `filePart` is the name of the
      uploaded `file` part, `None` when the form has no such part. */
  datatype Outcome =
    | NotHandled              // not a POST: the function falls through
    | NoFilePart              // redirect, flash 'No file part'
    | NoFileSelected          // redirect, flash 'No file selected for uploading'
    | Accepted(filename: string) // passed to `secure_filename` and `file.save`, flash 'File successfully uploaded'
    | WrongType(message: string)

  /** The flashed message of an outcome. */
  function Flash(o: Outcome): Option<string>
  {
    match o
    case NotHandled => None
    case NoFilePart => Some("No file part")
    case NoFileSelected => Some("No file selected for uploading")
    case Accepted(_) => Some("File successfully uploaded")
    case WrongType(m) => Some(m)
  }

  /** `upload_to(dest, allowed_ext)` for one request. */
  function UploadTo(httpMethod: string, filePart: Option<string>, allowedExt: Option<seq<string>>): (r: Outcome)
    ensures httpMethod != "POST" <==> r.NotHandled?
    ensures r.Accepted? ==> filePart == Some(r.filename) && r.filename != ""
    ensures r.WrongType? ==>
              allowedExt.Some? && r.message == "Allowed file types are " + Join(allowedExt.value, ",")
  {
    if httpMethod != "POST" then NotHandled
    else match filePart
      case None => NoFilePart
      case Some(name) =>
        if name == "" then NoFileSelected
        else if allowedExt.None? || AllowedFile(name, allowedExt.value) then Accepted(name)
        else WrongType("Allowed file types are " + Join(allowedExt.value, ","))
  }

  /** An upload is accepted exactly when it is a POST with a non-empty file
      name whose extension is allowed, or any non-empty name when no list is
      given; otherwise the request is answered with a redirect and a flashed
      message, or falls through for other methods. */
  lemma UploadAcceptsIffAllowed(httpMethod: string, filePart: Option<string>, allowedExt: Option<seq<string>>)
    ensures UploadTo(httpMethod, filePart, allowedExt).Accepted? <==>
              httpMethod == "POST" && filePart.Some? && filePart.value != ""
              && (allowedExt.None? || AllowedFile(filePart.value, allowedExt.value))
    ensures httpMethod == "POST" ==> Flash(UploadTo(httpMethod, filePart, allowedExt)).Some?
  {
  }

  /** The empty name is refused before the extension check, even when no
      list is given or when `""` is listed. */
  lemma EmptyNameRefusedFirst(allowedExt: Option<seq<string>>)
    ensures UploadTo("POST", Some(""), allowedExt) == NoFileSelected
    ensures Flash(UploadTo("POST", Some(""), allowedExt)) == Some("No file selected for uploading")
  {
  }

  /** Without a list every non-empty name is accepted, dotted or not. */
  lemma NoListAcceptsAnyName(name: string)
    requires name != ""
    ensures UploadTo("POST", Some(name), None) == Accepted(name)
  {
  }
}
